=== FILE: README.md ===
# Taskly core in Dafny

Taskly is an Android to-do app. Under its screens sit three pieces of state:

- the **task store**, an SQLite table `tasks` with an `AUTOINCREMENT` id;
- the **alarm table**, the reminders the app has set with the platform's alarm service and not cancelled;
- the **adapter's list**, what the main screen shows.

The rules that change these three are modelled here as pure functions. The clock reading `now` is a parameter.

- `JavaInt` (`java_int.dfy`): Java `int` and `long` as subset types. It covers `long` subtraction, which wraps modulo 2^64, and the `(int)` narrowing cast, which keeps the low 32 bits (section 5.1.3 of the Java Language Specification).
- `Tasks` (`task.dfy`): the immutable `Task` record. Its four destructors are the getters `getId`, `getTitle`, `getDescription` and `getTimestamp`. The record has no mutators, so a datatype is exact.
- `TaskOrder` (`task_order.dfy`): `Collections.sort` by timestamp, modelled as a stable sort.
- `Database` and `StoreLaws` (`database.dfy`, `store_laws.dfy`): `DatabaseHelper`.
  - The table is a map from id to row plus the AUTOINCREMENT counter.
  - `getAllTasks` lists the rows in timestamp order.
  - `onUpgrade` drops the table, which also resets the counter.
  - `updateTask` is an assumed operation; see below.
  - Reading never changes the store, because every store function takes the table and only the writers return one.
- `Alarms` (`alarms.dfy`): `scheduleTaskReminder` and `cancelTaskReminder`.
  - The alarm table is keyed by the request code `(int) taskTime`.
  - The reminder fires `10 * 60 * 1000` ms before the due instant.
  - Scheduling is skipped when that instant is not after `now`.
- `Restore` and `Boot` (`restore.dfy`, `boot.dfy`): the restore loop of `rescheduleAlarmsForAllTasks` and `BootReceiver.onReceive`. The boot receiver only reads the store and returns an alarm table.
- `Adapter` (`adapter.dfy`): `TaskAdapter`.
  - The status classification and what `onBindViewHolder` leaves on the row (icons, strike-through bit, colour).
  - `getItemCount`, `getTaskAt` and `removeTask`. A `List` index error is the `Failure` case of a `Result`.
- `Forms` (`forms.dfy`): the add and edit forms.
  - `String.trim()` is written as its two index scans.
  - The empty-field gate, the single store write, and the activity result.
  - The edit intent's extras and their defaults: `-1` for the id, `0` for the timestamp.
- `MainScreen` (`main_screen.dfy`): `MainActivity`.
  - `loadTasks`, `onCreate`, `onActivityResult`, swipe-to-delete and the long click that opens the editor.
  - `ReturnFrom` feeds a form's outcome back into `onActivityResult`. A form that set no result reports `RESULT_CANCELED`.

Two behaviours of the code are worth knowing, and the model keeps both:

- **An edit that moves a task's instant leaves the old reminder set.** The edit path neither cancels nor schedules anything (`EditTaskActivity.java:95-110`, `MainActivity.java:82-98`). `MainScreen.EditLeavesStaleReminder` shows the alarm under the old instant's key surviving the edit unchanged.
- **Updating a missing id reports success.** An edit intent without an id targets `-1`, which no row has. The assumed `updateTask` changes nothing, and the form still reports `RESULT_OK` (`Forms.MissingIdUpdatesNothing`).

`DatabaseHelper` has no `updateTask`, although `EditTaskActivity.java:106` calls one. `Database.UpdateTask` is an **assumed** operation: it overwrites the three columns of a present id and does nothing for an absent id.

## Model

| member | source | states |
|---|---|---|
| JavaInt.SubLong | app/src/main/java/com/patino/todolistapp/MainActivity.java:182 | `long` subtraction: the exact difference when it fits in 64 bits, otherwise the difference shifted by 2^64 back into range |
| JavaInt.NarrowToInt | app/src/main/java/com/patino/todolistapp/MainActivity.java:199 | `(int) taskTime` agrees with `taskTime` in the low 32 bits, and equals it exactly when `taskTime` fits in an `int` |
| JavaInt.NarrowCollides | app/src/main/java/com/patino/todolistapp/MainActivity.java:199 | two due instants get the same request code if and only if they agree in their low 32 bits |
| TaskOrder.StableSort | app/src/main/java/com/patino/todolistapp/MainActivity.java:102 | the sorted list is a permutation of its input and is non-decreasing by timestamp |
| TaskOrder.SameElements | app/src/main/java/com/patino/todolistapp/MainActivity.java:102 | a task is in the sorted list exactly when it is in the input |
| TaskOrder.StableSortIsStable | app/src/main/java/com/patino/todolistapp/MainActivity.java:102 | for every instant, the tasks due at that instant keep their relative order |
| TaskOrder.StableSortOfSorted | app/src/main/java/com/patino/todolistapp/MainActivity.java:100-102 | sorting a list that is already in timestamp order returns it unchanged |
| TaskOrder.StableSortKeepsDistinctIds | app/src/main/java/com/patino/todolistapp/MainActivity.java:102 | sorting cannot make two entries share an id |
| Database.Empty | app/src/main/java/com/patino/todolistapp/DatabaseHelper.java:25-32 | a freshly created table has no rows |
| Database.AddTask | app/src/main/java/com/patino/todolistapp/DatabaseHelper.java:40-48 | the insert adds exactly one row with the given values, under an id not in use and greater than every id in use; every other row is kept |
| Database.DeleteTask | app/src/main/java/com/patino/todolistapp/DatabaseHelper.java:72-76 | the delete removes the row with that id and no other; an absent id leaves the table as it was |
| Database.UpdateTask | app/src/main/java/com/patino/todolistapp/EditTaskActivity.java:106 | assumed operation: same ids afterwards, the given id carries the new values, every other row is kept, and an absent id changes nothing |
| Database.Upgrade | app/src/main/java/com/patino/todolistapp/DatabaseHelper.java:35-38 | after an upgrade the table is empty and reads back as the empty list |
| Database.ReadAll | app/src/main/java/com/patino/todolistapp/DatabaseHelper.java:50-69 | the list is in timestamp order, holds every row exactly once with its own id and values, and is as long as the table |
| StoreLaws.Replay | app/src/main/java/com/patino/todolistapp/DatabaseHelper.java:27 | over any sequence of inserts, deletes and updates, the ids handed out strictly increase and start at the counter |
| StoreLaws.IdsNeverReused | app/src/main/java/com/patino/todolistapp/DatabaseHelper.java:27 | no id is handed out twice, and none that was in use when the sequence began |
| StoreLaws.DeleteIdempotent | app/src/main/java/com/patino/todolistapp/DatabaseHelper.java:72-76 | deleting twice is deleting once |
| StoreLaws.DeleteUndoesAdd | app/src/main/java/com/patino/todolistapp/DatabaseHelper.java:40-76 | deleting the id an insert returned restores the previous rows |
| StoreLaws.ReadAllAfterAdd | app/src/main/java/com/patino/todolistapp/DatabaseHelper.java:40-69 | after an insert, reading back yields one task more, and the new task with exactly the given values |
| StoreLaws.ReadAllAfterUpdate | app/src/main/java/com/patino/todolistapp/EditTaskActivity.java:106 | after updating a present id, reading back yields exactly one task with that id, carrying the new values, and the same number of tasks |
| StoreLaws.ReadAllAfterDelete | app/src/main/java/com/patino/todolistapp/DatabaseHelper.java:50-76 | after a delete, no task read back has the deleted id, and one task fewer is read when it was present |
| Alarms.ReminderTime | app/src/main/java/com/patino/todolistapp/MainActivity.java:182 | the reminder instant is the due instant minus 600000 ms, wrapping by 2^64 when that leaves the `long` range |
| Alarms.Schedule | app/src/main/java/com/patino/todolistapp/MainActivity.java:179-213 | a reminder instant not after `now` leaves the table unchanged; otherwise key `(int) taskTime` holds the reminder (instant, title, due instant), firing after `now`, and every other key is unchanged |
| Alarms.Cancel | app/src/main/java/com/patino/todolistapp/MainActivity.java:156-175 | cancelling removes exactly key `(int) taskTime`, keeps the other alarms, and is a no-op when the key is absent |
| Alarms.ReminderTenMinutesBefore | app/src/main/java/com/patino/todolistapp/MainActivity.java:182 | the reminder is exactly ten minutes before the due instant unless the subtraction overflows, in which case it lands in the far future |
| Alarms.DueWithinLeadIsSkipped | app/src/main/java/com/patino/todolistapp/MainActivity.java:186-189 | a task due after `now` but within ten minutes of it gets no reminder |
| Alarms.ScheduleIdempotent | app/src/main/java/com/patino/todolistapp/MainActivity.java:179-213 | scheduling the same reminder twice is scheduling it once |
| Alarms.CancelUndoesSchedule | app/src/main/java/com/patino/todolistapp/MainActivity.java:156-213 | cancel after schedule equals cancel alone |
| Alarms.CancelIdempotent | app/src/main/java/com/patino/todolistapp/MainActivity.java:156-175 | cancelling twice is cancelling once |
| Alarms.ScheduleReplaces | app/src/main/java/com/patino/todolistapp/MainActivity.java:197-207 | in the model, a second schedule under the same key replaces the first, leaving no trace of it; on a device only the fire time is replaced and the first schedule's extras stay (see the `Alarms.Schedule` line under "## Left out") |
| Alarms.KeyCollision | app/src/main/java/com/patino/todolistapp/MainActivity.java:163-200 | two tasks whose due instants share the low 32 bits share one alarm: in the model the later schedule overwrites the earlier one (on a device only its fire time; the earlier title and `taskTime` extras stay, see the `Alarms.Schedule` line under "## Left out"), and cancelling either removes both |
| Alarms.Key | app/src/main/java/com/patino/todolistapp/MainActivity.java:199 | the request code `(int) taskTime` agrees with the due instant in its low 32 bits, and equals it exactly when the instant fits in an `int` |
| Restore.RestoreOne | app/src/main/java/com/patino/todolistapp/MainActivity.java:120-124 | one loop step writes the key of the task exactly when the task is due after `now` and its reminder is after `now`, stores that task's reminder there, and keeps every other alarm |
| Restore.RestoreAll | app/src/main/java/com/patino/todolistapp/MainActivity.java:117-125 | the restore loop, which `BootReceiver.onReceive` runs as well (`BootReceiver.java:27-33`), never removes an alarm, and every alarm it leaves different from before fires after `now`; exactly which keys it writes is `Restore.RestoreKeys` |
| Restore.RestoreKeys | app/src/main/java/com/patino/todolistapp/MainActivity.java:116-125 | the restore loop writes exactly the keys of tasks due after `now` whose reminder is after `now`, and leaves every other alarm as it was |
| Restore.RestoreOrigin | app/src/main/java/com/patino/todolistapp/MainActivity.java:116-125 | every alarm the loop writes is the reminder of a listed task that is due after `now` |
| Restore.PastTaskGetsNoAlarm | app/src/main/java/com/patino/todolistapp/MainActivity.java:121 | a task due at or before `now` obtains no alarm from the loop unless a future task shares its key |
| Restore.RestoreOver | app/src/main/java/com/patino/todolistapp/MainActivity.java:116-125 | restoring onto a table equals that table overridden by a restore onto an empty one |
| Restore.RestoreIdempotent | app/src/main/java/com/patino/todolistapp/MainActivity.java:116-125 | restoring twice with the same tasks and clock reading is restoring once |
| Restore.RestoreKeysOrderFree | app/src/main/java/com/patino/todolistapp/DatabaseHelper.java:53-54 | the set of restored keys does not depend on the order of the tasks |
| Restore.TieOrderPicksTitle | app/src/main/java/com/patino/todolistapp/DatabaseHelper.java:53-54 | for example: tasks "A" and "B", both due one hour after `now`, share one alarm, and in the model it carries "B" when the loop reads A first and "A" when it reads B first (on a device, the first one reached, see the `Alarms.Schedule` line under "## Left out"); the general rule is `Restore.LastWriterWins` |
| Restore.LastWriterWins | app/src/main/java/com/patino/todolistapp/MainActivity.java:118-124 | in the model, the alarm under a task's key after the restore loop is that task's reminder whenever it gets one and no later listed task that gets one has the same key |
| Boot.OnReceive | app/src/main/java/com/patino/todolistapp/BootReceiver.java:21-35 | an intent other than `BOOT_COMPLETED` leaves the alarms unchanged; on boot, exactly the keys of the future tasks that get a reminder are added, and other alarms are kept |
| Boot.BootSchedulesOnlyFutureTasks | app/src/main/java/com/patino/todolistapp/BootReceiver.java:27-33 | every alarm boot restore sets is the reminder of a stored task due after `now` whose request code `(int) taskTime` is that alarm's key, firing after `now` |
| Boot.BootIdempotent | app/src/main/java/com/patino/todolistapp/BootReceiver.java:22-33 | a second boot broadcast at the same clock reading changes nothing |
| Adapter.Bind | app/src/main/java/com/patino/todolistapp/TaskAdapter.java:65-92 | exactly one icon shows and it matches the status, strike-through is set iff overdue, other paint bits are kept, and the title is never left black |
| Adapter.StatusOf | app/src/main/java/com/patino/todolistapp/TaskAdapter.java:69-92 | a task is overdue exactly when it is due at or before `now`, except when `timestamp - now` overflows a `long`, where the wrapped difference flips the answer |
| Adapter.StatusAgainstClock | app/src/main/java/com/patino/todolistapp/TaskAdapter.java:69-92 | when `timestamp - now` fits in a `long`: overdue iff due at or before `now`, due soon iff due within the next ten minutes, on time otherwise |
| Adapter.StatusAgreesWithScheduler | app/src/main/java/com/patino/todolistapp/TaskAdapter.java:85-92 | "on time" is exactly where the scheduler sets a reminder, and a due-soon task is in the future but skipped |
| Adapter.GetTaskAt | app/src/main/java/com/patino/todolistapp/TaskAdapter.java:125-127 | positions inside the list give that element; any other position fails with the position and size |
| Adapter.RemoveTask | app/src/main/java/com/patino/todolistapp/TaskAdapter.java:136-139 | removal inside the list shortens it by one, keeps the prefix, and shifts the suffix down by one; any other position fails |
| Adapter.RemoveThenReinsert | app/src/main/java/com/patino/todolistapp/TaskAdapter.java:136-139 | putting the removed task back at its position restores the list |
| Adapter.RemoveKeepsTheOthers | app/src/main/java/com/patino/todolistapp/TaskAdapter.java:136-139 | removal takes out exactly that element, and keeps timestamp order and distinct ids |
| Forms.Trim | app/src/main/java/com/patino/todolistapp/AddTaskActivity.java:72-73 | the result starts and ends with a kept character and is the input less blanks (characters up to U+0020) at each end |
| Forms.TrimUnique | app/src/main/java/com/patino/todolistapp/AddTaskActivity.java:72-73 | any split of the input into blanks, trimmed text and blanks determines the trim result |
| Forms.TrimIdempotent | app/src/main/java/com/patino/todolistapp/EditTaskActivity.java:96-97 | trimming twice is trimming once |
| Forms.TrimEmptyIffBlank | app/src/main/java/com/patino/todolistapp/AddTaskActivity.java:76 | a field is rejected as empty exactly when it consists of blanks only |
| Forms.SaveTask | app/src/main/java/com/patino/todolistapp/AddTaskActivity.java:71-85 | an empty trimmed field leaves the store untouched, sets no result and keeps the form open; otherwise exactly one new row with the trimmed text and chosen instant, `RESULT_OK` with no data, and the form closes |
| Forms.SaveTaskWithReminder | app/src/main/java/com/patino/todolistapp/AddTaskActivity.java:83 | corrected save: the same gate and insert, but `RESULT_OK` carries the due instant and trimmed title |
| Forms.SaveTaskWithReminderOnlyAddsData | app/src/main/java/com/patino/todolistapp/AddTaskActivity.java:81-84 | the corrected save writes the same store, closes the form in the same cases, and returns the same result code as the original |
| Forms.OpenEditor | app/src/main/java/com/patino/todolistapp/EditTaskActivity.java:45-49 | the form updates the id from the intent, or `-1` when the intent carries none |
| Forms.UpdateTask | app/src/main/java/com/patino/todolistapp/EditTaskActivity.java:95-110 | an empty trimmed field leaves the store untouched and sets no result; otherwise only the intent's id receives the trimmed text and chosen instant, the ids stay the same, and `RESULT_OK` carries no data |
| Forms.MissingIdUpdatesNothing | app/src/main/java/com/patino/todolistapp/EditTaskActivity.java:46 | an edit intent without an id changes no row, yet the form reports `RESULT_OK` |
| Forms.StoredTextIsTrimmed | app/src/main/java/com/patino/todolistapp/AddTaskActivity.java:72-81 | whatever was typed, the new row's title and description are non-empty and trimmed |
| MainScreen.LoadTasks | app/src/main/java/com/patino/todolistapp/MainActivity.java:100-114 | the list equals the store read in timestamp order (the extra sort changes nothing); it shows every row once, and the placeholder shows iff the list is empty |
| MainScreen.RescheduleAll | app/src/main/java/com/patino/todolistapp/MainActivity.java:116-125 | the restore adds exactly the keys of future tasks with a reminder, keeps every other alarm, and touches neither store nor list |
| MainScreen.OnCreate | app/src/main/java/com/patino/todolistapp/MainActivity.java:51-55 | after creation the screen shows the store, and the alarm keys are the old ones plus the restored ones |
| MainScreen.CreateMatchesBoot | app/src/main/java/com/patino/todolistapp/BootReceiver.java:25-33 | opening the main screen and receiving the boot broadcast yield the same alarm table |
| MainScreen.OnActivityResult | app/src/main/java/com/patino/todolistapp/MainActivity.java:82-98 | any other request or result code changes nothing; `RESULT_OK` for request 1 reloads the list; a reminder is scheduled only when the data carries a positive `taskTime` and a title, and then only its key is added or replaced while every other alarm keeps its value |
| MainScreen.ReturnFrom | app/src/main/java/com/patino/todolistapp/AddTaskActivity.java:83-84 | after a form closes, the main screen holds the form's store; a form that set no result leaves alarms, list and placeholder as they were; `RESULT_OK` without data reloads the list to show the store and leaves the alarms as they were |
| MainScreen.AddRoundTripNeverSchedules | app/src/main/java/com/patino/todolistapp/AddTaskActivity.java:83 | as written: after a successful add, the new task is listed, but the alarm table is unchanged even when the task is far enough ahead for a reminder |
| MainScreen.BuyMilkGetsNoReminder | app/src/main/java/com/patino/todolistapp/AddTaskActivity.java:83 | as written, on concrete values: on an empty screen at instant 0, adding "Buy milk" due one hour later lists the task and leaves the alarm table empty |
| MainScreen.AddRoundTripSchedules | app/src/main/java/com/patino/todolistapp/MainActivity.java:87-95 | with the corrected save, the new task is listed and its reminder is set under its key, firing after `now` |
| MainScreen.OnSwiped | app/src/main/java/com/patino/todolistapp/MainActivity.java:135-150 | a swipe outside the list fails; inside, it cancels the key of that task's instant, deletes its row and nothing else, removes exactly that list entry while the others keep their order, and raises the placeholder when the list empties |
| MainScreen.SwipeKeepsMirror | app/src/main/java/com/patino/todolistapp/MainActivity.java:135-150 | if the screen showed the store before a swipe, it still does after it |
| MainScreen.SwipeRemovesOne | app/src/main/java/com/patino/todolistapp/MainActivity.java:143-144 | a swipe removes one row from the store and one entry from the list |
| MainScreen.SwipeCancelsSharedKey | app/src/main/java/com/patino/todolistapp/MainActivity.java:140 | swiping a task away also cancels the reminder of a still-listed task whose instant shares the low 32 bits |
| MainScreen.OnTaskLongClick | app/src/main/java/com/patino/todolistapp/MainActivity.java:217-225 | the editor opened from the intent is pre-filled with the task's id, title, description and instant |
| MainScreen.OnItemLongClick | app/src/main/java/com/patino/todolistapp/TaskAdapter.java:96-106 | `NO_POSITION` opens nothing; a position outside the list fails; otherwise the editor targets the id of the task at that position |
| MainScreen.UnchangedEditKeepsStore | app/src/main/java/com/patino/todolistapp/EditTaskActivity.java:46-106 | opening a listed task's editor and saving without changes leaves the store as it was, when its text is already trimmed and non-empty |
| MainScreen.EditRoundTripKeepsAlarms | app/src/main/java/com/patino/todolistapp/EditTaskActivity.java:95-110 | an edit never changes the alarm table; a successful one leaves the screen showing the store |
| MainScreen.EditLeavesStaleReminder | app/src/main/java/com/patino/todolistapp/EditTaskActivity.java:106-108 | after moving a task to a new instant, the old instant's alarm is still set and unchanged, the listed task carries the new instant, and the new instant has a reminder only if its key already had one |

## Left out

- SQLite I/O (`getWritableDatabase`, `close`, cursors): the table is a value. Only insert, `ORDER BY timestamp ASC`, delete and `DROP TABLE` semantics are kept.
- Database.ReadAll: SQL leaves the order of equal timestamps open. The model fixes ascending id.
- Restore.RestoreKeysOrderFree: only the set of restored keys is independent of the tie order. When two tasks due at the same instant share a key, the alarm under it carries, in the model, the title of the task the loop reaches last. On a device it carries the title of the first one reached, because the first `PendingIntent`'s extras are kept (see the `Alarms.Schedule` line). Either way the tie order decides which title that reminder shows, and the model fixes that order as ascending id (`Restore.LastWriterWins`, with the instance `Restore.TieOrderPicksTitle`).
- Firing is not modelled: an alarm stays in the alarm table after its instant has passed. The table means "set and not cancelled", not "still waiting to fire". An alarm whose `fireAt` is at or before `now` has already fired on a device.
- NULL columns: the model's rows always hold text. Only the forms write rows, and they never write NULL.
- Ids are unbounded integers. `cursor.getInt(0)` and the `int` intent extra would truncate ids past 2^31 - 1. AUTOINCREMENT's failure once the counter is exhausted is also not modelled.
- Alarms.Schedule: the model replaces the whole alarm set under a key, extras included. `MainActivity.java:197-202` asks for the `PendingIntent` without `FLAG_UPDATE_CURRENT`, so on a device an existing one with that request code is reused with its original `taskTitle` and `taskTime` extras, and a second `set` replaces only the fire time. The platform's rules for matching and reusing a `PendingIntent` are platform behaviour and are not modelled. Neither are `FLAG_IMMUTABLE`, exact versus inexact delivery, or idle deferral.
- The `alarmManager != null` checks: the alarm service is assumed present.
- Permission prompts and SDK version checks (`MainActivity.java:65-78`, `206-210`).
- `TaskReminderReceiver`: the notification shown when an alarm fires is a side effect.
- `SplashActivity`: UI timing.
- Clock: one clock reading `now` per call. The restore loops and `scheduleTaskReminder` re-read the clock at every step.
- `SimpleDateFormat`, `Calendar` and the date and time pickers: the form's chosen instant is an `Int64` parameter.
- View inflation, `notifyItemRemoved`, toasts and their text. Colours are an enumeration.
- Adapter.ItemCount: no contract of its own. It is the list length, and the contracts of `RemoveTask` and `OnSwiped` use it.
- Activity recreation and process death: each activity is a function of its inputs.

## Findings

| source | as written | input that shows it | evidently intended | confidence | as-written member | corrected member |
|---|---|---|---|---|---|---|
| app/src/main/java/com/patino/todolistapp/AddTaskActivity.java:83 | `saveTask` calls `setResult(RESULT_OK)` with no data. `onActivityResult` (`MainActivity.java:88-95`) schedules the new task's reminder only from that data's `taskTime` and `taskTitle` extras, so a newly added task gets no reminder until the next restart or boot | empty store and alarm table, `now` = 0, title "Buy milk", description "2 l", due at 3600000 (one hour later): after the add the task is listed and the alarm table is still empty (`MainScreen.BuyMilkGetsNoReminder`) | the result carries `taskTime` and `taskTitle`, as the comment at `MainActivity.java:87` expects, so the reminder is set at once | not executed | MainScreen.AddRoundTripNeverSchedules | Forms.SaveTaskWithReminder |

=== FILE: adapter.dfy ===
/** `TaskAdapter`: the list behind the RecyclerView, the status each row is
    drawn with, and positional access and removal. */
module Adapter {
  import opened JavaInt
  import opened Wrappers
  import opened Tasks
  import opened Alarms

  /** How a row is drawn, by the time left until the task is due. */
  datatype Status = Overdue | DueSoon | OnTime

  /** `Paint.STRIKE_THRU_TEXT_FLAG`. */
  const STRIKE_THRU_TEXT_FLAG: bv32 := 0x10

  /** The title colours the binder uses. */
  datatype TitleColor = Black | HoloRedDark | HoloOrangeDark | HoloGreenDark

  /** What `onBindViewHolder` leaves on screen for one row. */
  datatype RowView = RowView(
    title: string,
    description: string,
    iconWarning: bool,
    iconClose: bool,
    iconOntime: bool,
    paintFlags: bv32,
    titleColor: TitleColor)

  /** `java.lang.IndexOutOfBoundsException` from `List.get` / `List.remove`. */
  datatype IndexError = IndexOutOfBounds(index: int, size: int)

  /** The classification in `onBindViewHolder`: `timeDifference = taskTime -
      currentTime` in `long`, then `<= 0`, `<= 10 * 60 * 1000`, otherwise.
      A task is overdue exactly when it is due no later than `now`, except
      when the difference overflows a `long`, where the wrap flips the
      answer. */
  function StatusOf(timestamp: Int64, now: Int64): (r: Status)
    ensures r == Overdue <==> (timestamp <= now) == InInt64(timestamp - now)
  {
    var diff := SubLong(timestamp, now);
    if diff <= 0 then Overdue
    else if diff <= 10 * 60 * 1000 then DueSoon
    else OnTime
  }

  /** `onBindViewHolder` for `task` with the clock reading `now`, starting
      from a title whose paint flags are `flags`. The binder first hides all
      three icons, clears the strike-through bit and paints the title black,
      then shows one icon and sets colour and strike-through by status. */
  function Bind(task: Task, flags: bv32, now: Int64): (v: RowView)
    ensures v.title == task.title && v.description == task.description
    ensures (v.iconClose && !v.iconWarning && !v.iconOntime)
         || (!v.iconClose && v.iconWarning && !v.iconOntime)
         || (!v.iconClose && !v.iconWarning && v.iconOntime)
    ensures v.iconClose <==> StatusOf(task.timestamp, now) == Overdue
    ensures v.iconWarning <==> StatusOf(task.timestamp, now) == DueSoon
    ensures v.iconOntime <==> StatusOf(task.timestamp, now) == OnTime
    ensures (v.paintFlags & STRIKE_THRU_TEXT_FLAG != 0) <==> StatusOf(task.timestamp, now) == Overdue
    ensures v.paintFlags & !STRIKE_THRU_TEXT_FLAG == flags & !STRIKE_THRU_TEXT_FLAG
    ensures v.titleColor != Black
  {
    var reset := RowView(task.title, task.description, false, false, false,
                         flags & !STRIKE_THRU_TEXT_FLAG, Black);
    match StatusOf(task.timestamp, now)
    case Overdue =>
      reset.(iconClose := true, paintFlags := reset.paintFlags | STRIKE_THRU_TEXT_FLAG, titleColor := HoloRedDark)
    case DueSoon =>
      reset.(iconWarning := true, titleColor := HoloOrangeDark)
    case OnTime =>
      reset.(iconOntime := true, titleColor := HoloGreenDark)
  }

  /** When `timestamp - now` fits in a `long` (any two instants within
      292 million years of each other), the status reads the clock directly:
      overdue once the due instant is reached, due soon within the last ten
      minutes, on time before that. */
  lemma StatusAgainstClock(timestamp: Int64, now: Int64)
    requires InInt64(timestamp - now)
    ensures StatusOf(timestamp, now) == Overdue <==> timestamp <= now
    ensures StatusOf(timestamp, now) == DueSoon <==> now < timestamp <= now + LEAD_MILLIS
    ensures StatusOf(timestamp, now) == OnTime <==> timestamp > now + LEAD_MILLIS
  {
  }

  /** The adapter's "due soon" band is exactly where the scheduler refuses a
      reminder for a task still in the future, and "on time" exactly where it
      sets one. */
  lemma StatusAgreesWithScheduler(timestamp: Int64, now: Int64)
    requires InInt64(timestamp - now) && InInt64(timestamp - LEAD_MILLIS)
    ensures StatusOf(timestamp, now) == OnTime <==> !Skips(timestamp, now)
    ensures StatusOf(timestamp, now) == DueSoon ==> timestamp > now && Skips(timestamp, now)
  {
  }

  /** `getItemCount`. */
  function ItemCount(list: seq<Task>): nat {
    |list|
  }

  /** `getTaskAt(position)`: `List.get`, which throws outside the list. */
  function GetTaskAt(list: seq<Task>, position: int): (r: Result<Task, IndexError>)
    ensures r.Success? <==> 0 <= position < |list|
    ensures r.Success? ==> r.value == list[position]
    ensures r.Failure? ==> r.error == IndexOutOfBounds(position, |list|)
  {
    if 0 <= position < |list| then Success(list[position])
    else Failure(IndexOutOfBounds(position, |list|))
  }

  /** `removeTask(position)`: `List.remove(int)`, which shifts the later
      elements down by one and throws outside the list. */
  function RemoveTask(list: seq<Task>, position: int): (r: Result<seq<Task>, IndexError>)
    ensures r.Success? <==> 0 <= position < |list|
    ensures r.Success? ==> ItemCount(r.value) == ItemCount(list) - 1
    ensures r.Success? ==> forall i :: 0 <= i < position ==> r.value[i] == list[i]
    ensures r.Success? ==> forall i :: position <= i < |r.value| ==> r.value[i] == list[i + 1]
    ensures r.Failure? ==> r.error == IndexOutOfBounds(position, |list|)
  {
    if 0 <= position < |list| then Success(list[..position] + list[position + 1..])
    else Failure(IndexOutOfBounds(position, |list|))
  }

  /** Putting the removed task back at its position restores the list. */
  lemma RemoveThenReinsert(list: seq<Task>, position: int)
    requires 0 <= position < |list|
    ensures var rest := RemoveTask(list, position).value;
      rest[..position] + [list[position]] + rest[position..] == list
  {
    var rest := RemoveTask(list, position).value;
    assert rest[..position] == list[..position];
    assert rest[position..] == list[position + 1..];
    assert list == list[..position] + [list[position]] + list[position + 1..];
  }

  /** Removal takes out exactly the task at `position`: the rest keeps every
      other task with its multiplicity, and keeps the list in due order. */
  lemma RemoveKeepsTheOthers(list: seq<Task>, position: int)
    requires 0 <= position < |list|
    ensures multiset(RemoveTask(list, position).value) + multiset{list[position]} == multiset(list)
    ensures SortedByTime(list) ==> SortedByTime(RemoveTask(list, position).value)
    ensures DistinctIds(list) ==> DistinctIds(RemoveTask(list, position).value)
  {
    var rest := RemoveTask(list, position).value;
    assert list == list[..position] + [list[position]] + list[position + 1..];
    assert rest == list[..position] + list[position + 1..];
    if SortedByTime(list) {
      forall i, j | 0 <= i < j < |rest|
        ensures rest[i].timestamp <= rest[j].timestamp
      {
        var i' := if i < position then i else i + 1;
        var j' := if j < position then j else j + 1;
        assert rest[i] == list[i'] && rest[j] == list[j'];
      }
    }
    if DistinctIds(list) {
      forall i, j | 0 <= i < j < |rest|
        ensures rest[i].id != rest[j].id
      {
        var i' := if i < position then i else i + 1;
        var j' := if j < position then j else j + 1;
        assert rest[i] == list[i'] && rest[j] == list[j'];
      }
    }
  }
}

=== FILE: alarms.dfy ===
/** Reminder scheduling (`MainActivity.scheduleTaskReminder` and
    `cancelTaskReminder`) over the platform's alarm table. An alarm is found by
    its `PendingIntent`, and the only thing that tells two of this app's
    pending intents apart is the request code `(int) taskTime`, so the table is
    a map from that 32-bit key to the alarm set under it. Setting an alarm
    under a key replaces what was there, extras included (on a device the
    reused `PendingIntent` keeps its first extras); cancelling a key removes
    it. */
module Alarms {
  import opened JavaInt
  import opened Tasks

  /** How long before the due instant the reminder fires: `10 * 60 * 1000` ms. */
  const LEAD_MILLIS: int := 10 * 60 * 1000

  /** A one-shot alarm that is set: when it fires, and the extras it carries to
      the receiver (`taskTitle`, `taskTime`). */
  datatype Alarm = Alarm(fireAt: Int64, title: string, taskTime: Int64)

  /** The alarms this app has set and not cancelled, by request code. */
  type AlarmTable = map<Int32, Alarm>

  /** The request code of the alarm for a task due at `taskTime`. */
  function Key(taskTime: Int64): (k: Int32)
    ensures SameLow32(taskTime, k)
    ensures InInt32(taskTime) <==> k == taskTime
  {
    NarrowToInt(taskTime)
  }

  /** `reminderTime = taskTime - 10 * 60 * 1000`, computed in `long`. */
  function ReminderTime(taskTime: Int64): (r: Int64)
    ensures InInt64(taskTime - LEAD_MILLIS) ==> r == taskTime - LEAD_MILLIS
    ensures !InInt64(taskTime - LEAD_MILLIS) ==> r == taskTime - LEAD_MILLIS + TWO_64
  {
    SubLong(taskTime, LEAD_MILLIS)
  }

  /** The scheduler gives up when the reminder instant is not after `now`. */
  predicate Skips(taskTime: Int64, now: Int64) {
    ReminderTime(taskTime) <= now
  }

  /** The alarm `scheduleTaskReminder` sets for a task. */
  function AlarmFor(taskTime: Int64, title: string): Alarm {
    Alarm(ReminderTime(taskTime), title, taskTime)
  }

  /** `scheduleTaskReminder(context, taskTime, taskTitle)` with the clock
      reading `now`. */
  function Schedule(table: AlarmTable, now: Int64, taskTime: Int64, title: string): (r: AlarmTable)
    ensures Skips(taskTime, now) ==> r == table
    ensures !Skips(taskTime, now) ==>
      && r.Keys == table.Keys + {Key(taskTime)}
      && r[Key(taskTime)] == AlarmFor(taskTime, title)
      && r[Key(taskTime)].fireAt > now
    ensures forall k :: k in r && k != Key(taskTime) ==> k in table && r[k] == table[k]
    ensures forall k :: k in table && k != Key(taskTime) ==> k in r
  {
    if ReminderTime(taskTime) <= now then table
    else table[Key(taskTime) := AlarmFor(taskTime, title)]
  }

  /** `cancelTaskReminder(taskTime)`: `AlarmManager.cancel` on the pending
      intent with request code `(int) taskTime`. */
  function Cancel(table: AlarmTable, taskTime: Int64): (r: AlarmTable)
    ensures r.Keys == table.Keys - {Key(taskTime)}
    ensures forall k :: k in r ==> r[k] == table[k]
    ensures Key(taskTime) !in table ==> r == table
  {
    table - {Key(taskTime)}
  }

  /** The reminder instant is exactly ten minutes before the due instant,
      unless that subtraction leaves the `long` range; then it wraps round
      to a far-future instant. */
  lemma ReminderTenMinutesBefore(taskTime: Int64)
    ensures taskTime >= LONG_MIN + 600000 ==> ReminderTime(taskTime) == taskTime - 600000
    ensures taskTime < LONG_MIN + 600000 ==> ReminderTime(taskTime) > LONG_MAX - 600000
  {
  }

  /** A task due later than `now` but within ten minutes of it gets no
      reminder: its reminder instant has already passed (for any due instant
      at which the subtraction does not wrap). */
  lemma DueWithinLeadIsSkipped(taskTime: Int64, now: Int64)
    requires now < taskTime <= now + LEAD_MILLIS
    requires taskTime >= LONG_MIN + LEAD_MILLIS
    ensures Skips(taskTime, now)
  {
  }

  /** Scheduling the same task twice is scheduling it once. */
  lemma ScheduleIdempotent(table: AlarmTable, now: Int64, taskTime: Int64, title: string)
    ensures Schedule(Schedule(table, now, taskTime, title), now, taskTime, title)
         == Schedule(table, now, taskTime, title)
  {
  }

  /** Cancelling a task's alarm undoes scheduling it: whatever was under the
      key before is gone as well. */
  lemma CancelUndoesSchedule(table: AlarmTable, now: Int64, taskTime: Int64, title: string)
    ensures Cancel(Schedule(table, now, taskTime, title), taskTime) == Cancel(table, taskTime)
  {
  }

  /** Cancelling twice is cancelling once. */
  lemma CancelIdempotent(table: AlarmTable, taskTime: Int64)
    ensures Cancel(Cancel(table, taskTime), taskTime) == Cancel(table, taskTime)
  {
  }

  /** Replace by key: in the model, a second schedule under the same key
      leaves one alarm, the second one, and no trace of the first. */
  lemma ScheduleReplaces(table: AlarmTable, now: Int64, t1: Int64, title1: string, t2: Int64, title2: string)
    requires Key(t1) == Key(t2)
    requires !Skips(t2, now)
    ensures Schedule(Schedule(table, now, t1, title1), now, t2, title2) == Schedule(table, now, t2, title2)
  {
  }

  /** Two tasks whose due instants share their low 32 bits share one alarm:
      in the model the later schedule overwrites the earlier task's reminder, and
      cancelling either task's reminder removes the other's. Instants 2^32 ms
      (about 49.7 days) apart always collide. */
  lemma KeyCollision(table: AlarmTable, now: Int64, t1: Int64, title1: string, t2: Int64, title2: string)
    requires SameLow32(t1, t2)
    requires !Skips(t1, now) && !Skips(t2, now)
    ensures var both := Schedule(Schedule(table, now, t1, title1), now, t2, title2);
      && both[Key(t1)] == AlarmFor(t2, title2)
      && Key(t1) !in Cancel(both, t2)
  {
    NarrowCollides(t1, t2);
  }
}

=== FILE: boot.dfy ===
/** `BootReceiver.onReceive`: after the device boots, pending alarms are gone
    on the platform side, and the receiver re-registers reminders for every
    stored task due in the future. The store is only read. */
module Boot {
  import opened JavaInt
  import opened Wrappers
  import opened Tasks
  import opened Database
  import opened Alarms
  import opened Restore

  /** `Intent.ACTION_BOOT_COMPLETED`. */
  const ACTION_BOOT_COMPLETED: string := "android.intent.action.BOOT_COMPLETED"

  /** `onReceive` for an intent whose `getAction()` is `action` (possibly
      null), with the clock reading `now`. */
  function OnReceive(action: Option<string>, db: Db, alarms: AlarmTable, now: Int64): (r: AlarmTable)
    ensures action != Some(ACTION_BOOT_COMPLETED) ==> r == alarms
    ensures action == Some(ACTION_BOOT_COMPLETED) ==>
      && r.Keys == alarms.Keys + WrittenKeys(ReadAll(db), now)
      && (forall k :: k in alarms && k !in WrittenKeys(ReadAll(db), now) ==> r[k] == alarms[k])
  {
    if action == Some(ACTION_BOOT_COMPLETED) then
      RestoreKeys(alarms, ReadAll(db), now);
      RestoreAll(alarms, ReadAll(db), now)
    else alarms
  }

  /** Every alarm the boot restore sets or changes is the reminder of a
      stored task due after `now` whose request code is its key, firing
      after `now`. */
  lemma BootSchedulesOnlyFutureTasks(action: Option<string>, db: Db, alarms: AlarmTable, now: Int64)
    ensures var r := OnReceive(action, db, alarms, now);
      forall k :: k in r ==>
        (k in alarms && r[k] == alarms[k]) ||
        exists t :: t in ReadAll(db) && t.timestamp > now && Key(t.timestamp) == k && r[k] == AlarmFor(t.timestamp, t.title) && r[k].fireAt > now
  {
    if action == Some(ACTION_BOOT_COMPLETED) {
      RestoreOrigin(alarms, ReadAll(db), now);
    }
  }

  /** A second boot broadcast with the same clock reading changes nothing. */
  lemma BootIdempotent(action: Option<string>, db: Db, alarms: AlarmTable, now: Int64)
    ensures OnReceive(action, db, OnReceive(action, db, alarms, now), now) == OnReceive(action, db, alarms, now)
  {
    if action == Some(ACTION_BOOT_COMPLETED) {
      RestoreIdempotent(alarms, ReadAll(db), now);
    }
  }
}

=== FILE: database.dfy ===
/** The SQLite table `tasks` behind `DatabaseHelper`: an `INTEGER PRIMARY KEY
    AUTOINCREMENT` id column, `title`, `description` and `timestamp`. The
    table is a finite map from id to row, together with the AUTOINCREMENT
    counter: SQLite hands out an id larger than any it has handed out for this
    table, and never reuses one, even after deletions. */
module Database {
  import opened JavaInt
  import opened Tasks
  import opened TaskOrder

  /** The non-key columns of one row. */
  datatype Row = Row(title: string, description: string, timestamp: Int64)

  /** The table's rows by id, and the next id AUTOINCREMENT will assign. */
  datatype Table = Table(rows: map<int, Row>, nextId: int) {
    /** SQLite starts rowids at 1, and every id in use was assigned earlier. */
    predicate Valid() {
      nextId >= 1 && forall id :: id in rows ==> 1 <= id < nextId
    }
  }

  /** A table as the database file can hold it. */
  type Db = t: Table | t.Valid() witness Table(map[], 1)

  /** The row a task was read from. */
  function RowOf(t: Task): Row {
    Row(t.title, t.description, t.timestamp)
  }

  /** `s` holds every row of `db` exactly once, each with its own id and
      column values, and nothing else. */
  predicate ListsAllRows(s: seq<Task>, db: Db) {
    && DistinctIds(s)
    && (forall i :: 0 <= i < |s| ==> s[i].id in db.rows && db.rows[s[i].id] == RowOf(s[i]))
    && (forall id :: id in db.rows ==> exists i :: 0 <= i < |s| && s[i].id == id)
  }

  /** A freshly created, empty table (`onCreate`). */
  function Empty(): (r: Db)
    ensures r.rows == map[]
  {
    Table(map[], 1)
  }

  /** `addTask`: one INSERT. Returns the new table and the id SQLite assigned. */
  function AddTask(db: Db, title: string, description: string, timestamp: Int64): (r: (Db, int))
    ensures var (db', id) := r;
      && id !in db.rows
      && (forall old_id :: old_id in db.rows ==> old_id < id)
      && id >= db.nextId && db'.nextId > id
      && db'.rows.Keys == db.rows.Keys + {id}
      && db'.rows[id] == Row(title, description, timestamp)
      && (forall k :: k in db.rows ==> db'.rows[k] == db.rows[k])
  {
    var id := db.nextId;
    (Table(db.rows[id := Row(title, description, timestamp)], id + 1), id)
  }

  /** `deleteTask`: `DELETE FROM tasks WHERE id = ?`. An absent id matches no
      row and changes nothing. */
  function DeleteTask(db: Db, id: int): (r: Db)
    ensures r.rows.Keys == db.rows.Keys - {id}
    ensures forall k :: k in r.rows ==> r.rows[k] == db.rows[k]
    ensures id !in db.rows ==> r == db
    ensures r.nextId == db.nextId
  {
    Table(db.rows - {id}, db.nextId)
  }

  /** `updateTask(id, title, description, timestamp)`. `EditTaskActivity`
      calls it, but `DatabaseHelper` declares no such method; this is the
      assumed behaviour of an `UPDATE ... WHERE id = ?`: overwrite the three
      columns of that id, leave the id, and match nothing if it is absent. */
  function UpdateTask(db: Db, id: int, title: string, description: string, timestamp: Int64): (r: Db)
    ensures r.rows.Keys == db.rows.Keys
    ensures id in db.rows ==> r.rows[id] == Row(title, description, timestamp)
    ensures forall k :: k in db.rows && k != id ==> r.rows[k] == db.rows[k]
    ensures id !in db.rows ==> r == db
  {
    if id in db.rows then Table(db.rows[id := Row(title, description, timestamp)], db.nextId)
    else db
  }

  /** `onUpgrade`: `DROP TABLE IF EXISTS tasks` then `onCreate`. Dropping the
      table also drops its AUTOINCREMENT counter, so ids start again at 1. */
  function Upgrade(db: Db): (r: Db)
    ensures r.rows == map[]
    ensures ReadAll(r) == []
  {
    Empty()
  }

  /** The ids of `db` below `n`. */
  function IdsBelow(db: Db, n: int): set<int> {
    set id | id in db.rows && id < n
  }

  /** The rows with ids below `n` in ascending id order, the order in which
      SQLite scans a rowid table. */
  function RowsBelow(db: Db, n: int): seq<Task>
    decreases n
  {
    if n <= 1 then []
    else
      var row := if n - 1 in db.rows then [TaskOf(n - 1, db.rows[n - 1])] else [];
      RowsBelow(db, n - 1) + row
  }

  /** The task `getAllTasks` builds from the row with id `id`. */
  function TaskOf(id: int, row: Row): Task {
    Task(id, row.title, row.description, row.timestamp)
  }

  /** Every entry of the scan is a row of the table, read back faithfully,
      and ids ascend. */
  lemma {:induction false} RowsBelowSound(db: Db, n: int)
    ensures forall i :: 0 <= i < |RowsBelow(db, n)| ==> ScannedRow(db, n, RowsBelow(db, n)[i])
    ensures forall i, j :: 0 <= i < j < |RowsBelow(db, n)| ==> RowsBelow(db, n)[i].id < RowsBelow(db, n)[j].id
    decreases n
  {
    if n > 1 {
      RowsBelowSound(db, n - 1);
      var prefix := RowsBelow(db, n - 1);
      var r := RowsBelow(db, n);
      assert forall i :: 0 <= i < |prefix| ==> r[i] == prefix[i];
      assert forall i :: 0 <= i < |prefix| ==> ScannedRow(db, n, r[i]);
    }
  }

  predicate ScannedRow(db: Db, n: int, t: Task) {
    t.id < n && t.id in db.rows && db.rows[t.id] == RowOf(t)
  }

  /** The scan reaches every row below `n`. */
  lemma {:induction false} RowsBelowCovers(db: Db, n: int)
    ensures forall id :: id in db.rows && id < n ==> TaskOf(id, db.rows[id]) in RowsBelow(db, n)
    decreases n
  {
    if n > 1 {
      RowsBelowCovers(db, n - 1);
    } else {
      assert db.Valid();
    }
  }

  /** The scan holds one entry per id below `n`. */
  lemma {:induction false} RowsBelowCount(db: Db, n: int)
    ensures |RowsBelow(db, n)| == |IdsBelow(db, n)|
    decreases n
  {
    if n <= 1 {
      assert IdsBelow(db, n) == {};
    } else {
      RowsBelowCount(db, n - 1);
      if n - 1 in db.rows {
        assert IdsBelow(db, n) == IdsBelow(db, n - 1) + {n - 1};
      } else {
        assert IdsBelow(db, n) == IdsBelow(db, n - 1);
      }
    }
  }

  /** The scan of the whole table, sorted by due instant. */
  function SortedScan(db: Db): seq<Task> {
    StableSort(RowsBelow(db, db.nextId))
  }

  lemma SortedScanDistinct(db: Db)
    ensures DistinctIds(SortedScan(db))
  {
    RowsBelowSound(db, db.nextId);
    StableSortKeepsDistinctIds(RowsBelow(db, db.nextId));
  }

  lemma SortedScanFaithful(db: Db)
    ensures forall i :: 0 <= i < |SortedScan(db)| ==> SortedScan(db)[i].id in db.rows && db.rows[SortedScan(db)[i].id] == RowOf(SortedScan(db)[i])
  {
    var scan := RowsBelow(db, db.nextId);
    var r := SortedScan(db);
    RowsBelowSound(db, db.nextId);
    SameElements(scan);
    forall i | 0 <= i < |r|
      ensures r[i].id in db.rows && db.rows[r[i].id] == RowOf(r[i])
    {
      assert r[i] in scan;
      var j :| 0 <= j < |scan| && scan[j] == r[i];
      assert ScannedRow(db, db.nextId, scan[j]);
    }
  }

  lemma SortedScanCovers(db: Db)
    ensures forall id :: id in db.rows ==> exists i :: 0 <= i < |SortedScan(db)| && SortedScan(db)[i].id == id
  {
    var scan := RowsBelow(db, db.nextId);
    var r := SortedScan(db);
    RowsBelowCovers(db, db.nextId);
    SameElements(scan);
    forall id | id in db.rows
      ensures exists i :: 0 <= i < |r| && r[i].id == id
    {
      assert TaskOf(id, db.rows[id]) in r;
    }
  }

  lemma SortedScanCount(db: Db)
    ensures |SortedScan(db)| == |db.rows|
  {
    var scan := RowsBelow(db, db.nextId);
    var r := SortedScan(db);
    RowsBelowCount(db, db.nextId);
    assert IdsBelow(db, db.nextId) == db.rows.Keys;
    assert |r| == |multiset(r)| == |multiset(scan)| == |scan|;
  }

  /** `getAllTasks`: `SELECT ... ORDER BY timestamp ASC`, one `Task` per row.
      SQL leaves the order of rows with equal timestamps open; this model
      sorts the id-ordered scan stably, so such rows come by ascending id. */
  function ReadAll(db: Db): (r: seq<Task>)
    ensures SortedByTime(r)
    ensures ListsAllRows(r, db)
    ensures |r| == |db.rows|
  {
    SortedScanDistinct(db);
    SortedScanFaithful(db);
    SortedScanCovers(db);
    SortedScanCount(db);
    SortedScan(db)
  }
}

=== FILE: forms.dfy ===
/** The two input forms: `AddTaskActivity.saveTask` and
    `EditTaskActivity.updateTask`. Both trim the two text fields with Java's
    `String.trim()`, refuse to touch the store when either is then empty, and
    otherwise write once, set `RESULT_OK` with no result data, and finish. */
module Forms {
  import opened JavaInt
  import opened Wrappers
  import opened Database

  /** `Activity.RESULT_OK`. */
  const RESULT_OK: int := -1

  /** A character `String.trim()` strips: any code point up to U+0020. */
  predicate IsBlank(c: char) {
    c <= ' '
  }

  predicate AllBlank(s: string) {
    forall i :: 0 <= i < |s| ==> IsBlank(s[i])
  }

  /** `s` is empty or starts and ends with a character trim keeps. */
  predicate Trimmed(s: string) {
    s == [] || (!IsBlank(s[0]) && !IsBlank(s[|s| - 1]))
  }

  /** The first index at or after `i` that holds a character trim keeps, or
      `|s|`: the forward scan of `String.trim()`. */
  function Start(s: string, i: nat): (k: nat)
    requires i <= |s|
    ensures i <= k <= |s|
    ensures forall j :: i <= j < k ==> IsBlank(s[j])
    ensures k == |s| || !IsBlank(s[k])
    decreases |s| - i
  {
    if i < |s| && IsBlank(s[i]) then Start(s, i + 1) else i
  }

  /** The backward scan of `String.trim()`: the end of the text once the
      blanks in front of `j` are dropped, never going below `lo`. */
  function End(s: string, lo: nat, j: nat): (k: nat)
    requires lo <= j <= |s|
    ensures lo <= k <= j
    ensures forall m :: k <= m < j ==> IsBlank(s[m])
    ensures k == lo || !IsBlank(s[k - 1])
  {
    if j > lo && IsBlank(s[j - 1]) then End(s, lo, j - 1) else j
  }

  /** `r` is `s` less some blanks at each end. */
  predicate BlankFramed(s: string, r: string) {
    exists i :: 0 <= i <= |s| - |r| && r == s[i..i + |r|] && AllBlank(s[..i]) && AllBlank(s[i + |r|..])
  }

  /** Java's `String.trim()`: the text between the leading and the trailing
      blanks. */
  function Trim(s: string): (r: string)
    ensures Trimmed(r)
    ensures BlankFramed(s, r)
  {
    var st := Start(s, 0);
    var len := End(s, st, |s|);
    var r := s[st..len];
    assert r == s[st..st + |r|];
    assert AllBlank(s[..st]) by {
      assert forall j :: 0 <= j < st ==> s[..st][j] == s[j];
    }
    assert AllBlank(s[len..]) by {
      assert forall j :: 0 <= j < |s| - len ==> s[len..][j] == s[len + j];
    }
    r
  }

  /** The forward scan stops exactly at the first kept character. */
  lemma StartAt(s: string, i: nat, k: nat)
    requires i <= k <= |s|
    requires forall j :: i <= j < k ==> IsBlank(s[j])
    requires k == |s| || !IsBlank(s[k])
    ensures Start(s, i) == k
  {
  }

  /** The backward scan stops exactly behind the last kept character. */
  lemma EndAt(s: string, lo: nat, j: nat, k: nat)
    requires lo <= k <= j <= |s|
    requires forall m :: k <= m < j ==> IsBlank(s[m])
    requires k == lo || !IsBlank(s[k - 1])
    ensures End(s, lo, j) == k
  {
  }

  /** Trim is characterised by its contract: whenever `s` is blanks, then
      trimmed text, then blanks, the trimmed text is what `trim()` returns. */
  lemma TrimUnique(a: string, m: string, b: string)
    requires AllBlank(a) && AllBlank(b) && Trimmed(m)
    ensures Trim(a + m + b) == m
  {
    if m == [] {
      assert a + m + b == a + b;
      TrimOfBlanks(a, b);
    } else {
      TrimOfFramed(a, m, b);
    }
  }

  lemma TrimOfBlanks(a: string, b: string)
    requires AllBlank(a) && AllBlank(b)
    ensures Trim(a + b) == []
  {
    var s := a + b;
    forall i | 0 <= i < |s|
      ensures IsBlank(s[i])
    {
      if i < |a| { assert s[i] == a[i]; } else { assert s[i] == b[i - |a|]; }
    }
    StartAt(s, 0, |s|);
  }

  lemma TrimOfFramed(a: string, m: string, b: string)
    requires AllBlank(a) && AllBlank(b) && m != [] && Trimmed(m)
    ensures Trim(a + m + b) == m
  {
    var s := a + m + b;
    forall i | 0 <= i < |a|
      ensures IsBlank(s[i])
    {
      assert s[i] == a[i];
    }
    forall i | |a| + |m| <= i < |s|
      ensures IsBlank(s[i])
    {
      assert s[i] == b[i - |a| - |m|];
    }
    assert s[|a|] == m[0] && s[|a| + |m| - 1] == m[|m| - 1];
    StartAt(s, 0, |a|);
    EndAt(s, |a|, |s|, |a| + |m|);
    assert s[|a|..|a| + |m|] == m;
  }

  /** Trimming twice is trimming once. */
  lemma TrimIdempotent(s: string)
    ensures Trim(Trim(s)) == Trim(s)
  {
    var r := Trim(s);
    assert [] + r + [] == r;
    TrimUnique([], r, []);
  }

  /** Trim yields the empty string exactly when every character is blank. */
  lemma TrimEmptyIffBlank(s: string)
    ensures Trim(s) == [] <==> AllBlank(s)
  {
    if AllBlank(s) {
      assert s + [] + [] == s;
      TrimUnique(s, [], []);
    }
  }

  /** The data returned to `MainActivity.onActivityResult`. */
  datatype ResultData = ResultData(taskTime: Option<Int64>, taskTitle: Option<string>)

  /** `setResult(code)` or `setResult(code, data)`, or no result at all. */
  datatype ActivityResult = NoResult | ResultSet(code: int, data: Option<ResultData>)

  /** The store, the activity result and whether the form finished, after
      Save is pressed. */
  datatype Outcome = Outcome(db: Db, result: ActivityResult, finished: bool)

  /** The guard both forms apply to the trimmed fields. */
  predicate Rejects(titleText: string, descriptionText: string) {
    Trim(titleText) == [] || Trim(descriptionText) == []
  }

  /** `AddTaskActivity.saveTask`, `selected` being
      `selectedDateTime.getTimeInMillis()`. */
  function SaveTask(db: Db, titleText: string, descriptionText: string, selected: Int64): (r: Outcome)
    ensures Rejects(titleText, descriptionText) ==> r == Outcome(db, NoResult, false)
    ensures !Rejects(titleText, descriptionText) ==>
      && r.result == ResultSet(RESULT_OK, None)
      && r.finished
      && |r.db.rows| == |db.rows| + 1
      && exists id :: id !in db.rows && r.db.rows == db.rows[id := Row(Trim(titleText), Trim(descriptionText), selected)]
  {
    var title := Trim(titleText);
    var description := Trim(descriptionText);
    if title == [] || description == [] then Outcome(db, NoResult, false)
    else
      var (db', id) := AddTask(db, title, description, selected);
      assert db'.rows == db.rows[id := Row(title, description, selected)];
      Outcome(db', ResultSet(RESULT_OK, None), true)
  }

  /** `saveTask` as its caller expects it: the same insert, but the result
      carries the `taskTime` and `taskTitle` extras that
      `MainActivity.onActivityResult` reads to schedule the reminder. */
  function SaveTaskWithReminder(db: Db, titleText: string, descriptionText: string, selected: Int64): (r: Outcome)
    ensures Rejects(titleText, descriptionText) ==> r == Outcome(db, NoResult, false)
    ensures !Rejects(titleText, descriptionText) ==>
      && r.result == ResultSet(RESULT_OK, Some(ResultData(Some(selected), Some(Trim(titleText)))))
      && r.finished
      && exists id :: id !in db.rows && r.db.rows == db.rows[id := Row(Trim(titleText), Trim(descriptionText), selected)]
  {
    var title := Trim(titleText);
    var description := Trim(descriptionText);
    if title == [] || description == [] then Outcome(db, NoResult, false)
    else
      var (db', id) := AddTask(db, title, description, selected);
      assert db'.rows == db.rows[id := Row(title, description, selected)];
      Outcome(db', ResultSet(RESULT_OK, Some(ResultData(Some(selected), Some(title)))), true)
  }

  /** The corrected save differs from the one as written only in the data
      it returns: the store and whether the form closes are the same. */
  lemma SaveTaskWithReminderOnlyAddsData(db: Db, titleText: string, descriptionText: string, selected: Int64)
    ensures var fixed := SaveTaskWithReminder(db, titleText, descriptionText, selected);
      var asWritten := SaveTask(db, titleText, descriptionText, selected);
      && fixed.db == asWritten.db && fixed.finished == asWritten.finished
      && (fixed.result.ResultSet? <==> asWritten.result.ResultSet?)
      && (fixed.result.ResultSet? ==> fixed.result.code == asWritten.result.code)
  {
  }

  /** The extras `MainActivity.onTaskLongClick` puts on the edit intent. */
  datatype EditIntent = EditIntent(
    taskId: Option<int>,
    taskTitle: Option<string>,
    taskDescription: Option<string>,
    taskTimestamp: Option<Int64>)

  /** The edit form's state: the id it will update and the field contents. */
  datatype EditForm = EditForm(taskId: int, titleText: string, descriptionText: string, selected: Int64)

  /** `EditTaskActivity.onCreate`: read the extras with their defaults (`-1`
      for the id, `0` for the timestamp) and pre-fill the fields; a null
      string shows as empty text. */
  function OpenEditor(intent: EditIntent): (f: EditForm)
    ensures intent.taskId.None? ==> f.taskId == -1
    ensures intent.taskId.Some? ==> f.taskId == intent.taskId.value
  {
    EditForm(intent.taskId.GetOr(-1), intent.taskTitle.GetOr(""),
             intent.taskDescription.GetOr(""), intent.taskTimestamp.GetOr(0))
  }

  /** `EditTaskActivity.updateTask` on the form's current contents. */
  function UpdateTask(db: Db, form: EditForm): (r: Outcome)
    ensures Rejects(form.titleText, form.descriptionText) ==> r == Outcome(db, NoResult, false)
    ensures !Rejects(form.titleText, form.descriptionText) ==>
      && r.result == ResultSet(RESULT_OK, None)
      && r.finished
      && r.db.rows.Keys == db.rows.Keys
      && (form.taskId in db.rows ==> r.db.rows[form.taskId] == Row(Trim(form.titleText), Trim(form.descriptionText), form.selected))
      && (forall k :: k in db.rows && k != form.taskId ==> r.db.rows[k] == db.rows[k])
  {
    var title := Trim(form.titleText);
    var description := Trim(form.descriptionText);
    if title == [] || description == [] then Outcome(db, NoResult, false)
    else Outcome(Database.UpdateTask(db, form.taskId, title, description, form.selected),
                 ResultSet(RESULT_OK, None), true)
  }

  /** An edit intent without an id updates nothing, yet the form still
      reports success: `-1` is never an id SQLite assigns. */
  lemma MissingIdUpdatesNothing(db: Db, intent: EditIntent, titleText: string, descriptionText: string, selected: Int64)
    requires intent.taskId.None?
    requires !Rejects(titleText, descriptionText)
    ensures var r := UpdateTask(db, OpenEditor(intent).(titleText := titleText, descriptionText := descriptionText, selected := selected));
      r.db == db && r.result == ResultSet(RESULT_OK, None)
  {
    assert db.Valid();
  }

  /** Whatever the user typed, what reaches the store is trimmed and
      non-empty. */
  lemma StoredTextIsTrimmed(db: Db, titleText: string, descriptionText: string, selected: Int64)
    requires !Rejects(titleText, descriptionText)
    ensures var r := SaveTask(db, titleText, descriptionText, selected);
      forall id :: id in r.db.rows && id !in db.rows ==>
        && r.db.rows[id].title != [] && Trimmed(r.db.rows[id].title)
        && r.db.rows[id].description != [] && Trimmed(r.db.rows[id].description)
  {
  }
}

=== FILE: java_int.dfy ===
/** Java's fixed-width integers. `int` (32-bit) and `long` (64-bit) are ranges
    of Dafny's unbounded integers; the operations below write out the
    two's-complement wrap-around of Java's `long` subtraction and of the
    narrowing cast `(int)`, which keeps the low 32 bits of a `long`
    (section 5.1.3 of the Java Language Specification). */
module JavaInt {

  const TWO_32: int := 0x1_0000_0000
  const TWO_64: int := 0x1_0000_0000_0000_0000
  const INT_MIN: int := -0x8000_0000
  const INT_MAX: int := 0x7fff_ffff
  const LONG_MIN: int := -0x8000_0000_0000_0000
  const LONG_MAX: int := 0x7fff_ffff_ffff_ffff

  /** Java `int`. */
  type Int32 = x: int | INT_MIN <= x <= INT_MAX

  /** Java `long`. */
  type Int64 = x: int | LONG_MIN <= x <= LONG_MAX

  predicate InInt32(x: int) {
    INT_MIN <= x <= INT_MAX
  }

  predicate InInt64(x: int) {
    LONG_MIN <= x <= LONG_MAX
  }

  /** `x` and `y` have the same low 64 bits. */
  predicate SameLow64(x: int, y: int) {
    (x - y) % TWO_64 == 0
  }

  /** `x` and `y` have the same low 32 bits. */
  predicate SameLow32(x: int, y: int) {
    (x - y) % TWO_32 == 0
  }

  /** The `long` that Java's arithmetic yields when the exact result is `x`. */
  function WrapLong(x: int): (r: Int64)
    ensures SameLow64(x, r)
    ensures InInt64(x) ==> r == x
  {
    var m := x % TWO_64;
    if m <= LONG_MAX then m else m - TWO_64
  }

  /** Java's `a - b` on two `long`s. */
  function SubLong(a: Int64, b: Int64): (r: Int64)
    ensures InInt64(a - b) ==> r == a - b
    ensures a - b > LONG_MAX ==> r == a - b - TWO_64
    ensures a - b < LONG_MIN ==> r == a - b + TWO_64
  {
    WrapLong(a - b)
  }

  /** Java's narrowing cast `(int) x` of a `long`: its low 32 bits, read as a
      two's-complement `int`. */
  function NarrowToInt(x: Int64): (r: Int32)
    ensures SameLow32(x, r)
    ensures InInt32(x) <==> r == x
  {
    var m := x % TWO_32;
    if m <= INT_MAX then m else m - TWO_32
  }

  /** WrapLong is the one `long` with the same low 64 bits as its
      argument: no other 64-bit value could be what Java computes. */
  lemma WrapLongUnique(x: int, y: Int64)
    requires SameLow64(x, y)
    ensures WrapLong(x) == y
  {
  }

  /** Two `long`s narrow to the same `int` exactly when their low 32 bits
      agree: the cast collides on every pair of values 2^32 apart. */
  lemma NarrowCollides(x: Int64, y: Int64)
    ensures NarrowToInt(x) == NarrowToInt(y) <==> SameLow32(x, y)
  {
  }
}

=== FILE: main_screen.dfy ===
/** `MainActivity`: the task list screen. It owns the store, the adapter's
    list, the "no tasks" placeholder and, through the alarm service, the
    reminders it has set; it reacts to creation, to a result from the add or
    edit form, to a swipe and to a long click. */
module MainScreen {
  import opened JavaInt
  import opened Wrappers
  import opened Tasks
  import opened TaskOrder
  import opened Database
  import opened Alarms
  import opened Restore
  import opened Adapter
  import opened Forms
  import Boot

  /** The request code both forms are started with. */
  const ADD_TASK_REQUEST: int := 1

  /** `Activity.RESULT_CANCELED`: the code a form returns when it finishes
      without `setResult`, e.g. on Back. */
  const RESULT_CANCELED: int := 0

  /** `RecyclerView.NO_POSITION`. */
  const NO_POSITION: int := -1

  /** The store, the alarms set and not cancelled, the adapter's list and whether the
      `noTasksContainer` placeholder is visible. */
  datatype Screen = Screen(db: Db, alarms: AlarmTable, list: seq<Task>, placeholderShown: bool)

  /** The screen shows the store: every row once, in due order, and the
      placeholder exactly when there is nothing to show. */
  predicate Mirrors(s: Screen) {
    && SortedByTime(s.list)
    && ListsAllRows(s.list, s.db)
    && (s.placeholderShown <==> s.list == [])
  }

  /** `loadTasks`: read every task, sort by timestamp with
      `Collections.sort`, hand the list to a new adapter and show the
      placeholder exactly when it is empty. `getAllTasks` already returns the
      tasks in timestamp order, and the sort is stable, so it changes
      nothing. */
  function LoadTasks(s: Screen): (r: Screen)
    ensures Mirrors(r)
    ensures r.db == s.db && r.alarms == s.alarms
    ensures r.list == ReadAll(s.db)
  {
    var tasks := StableSort(ReadAll(s.db));
    StableSortOfSorted(ReadAll(s.db));
    s.(list := tasks, placeholderShown := ItemCount(tasks) == 0)
  }

  /** `rescheduleAlarmsForAllTasks` with the clock reading `now`. */
  function RescheduleAll(s: Screen, now: Int64): (r: Screen)
    ensures r.db == s.db && r.list == s.list && r.placeholderShown == s.placeholderShown
    ensures r.alarms.Keys == s.alarms.Keys + WrittenKeys(ReadAll(s.db), now)
    ensures forall k :: k in s.alarms && k !in WrittenKeys(ReadAll(s.db), now) ==> r.alarms[k] == s.alarms[k]
  {
    RestoreKeys(s.alarms, ReadAll(s.db), now);
    s.(alarms := RestoreAll(s.alarms, ReadAll(s.db), now))
  }

  /** `onCreate` on a store `db` and alarm table `alarms`: load the list,
      then re-register the reminders of every future task. */
  function OnCreate(db: Db, alarms: AlarmTable, now: Int64): (r: Screen)
    ensures Mirrors(r) && r.db == db
    ensures r.alarms.Keys == alarms.Keys + WrittenKeys(ReadAll(db), now)
  {
    RescheduleAll(LoadTasks(Screen(db, alarms, [], true)), now)
  }

  /** Opening the screen re-registers exactly the alarms a boot broadcast
      does. */
  lemma CreateMatchesBoot(db: Db, alarms: AlarmTable, now: Int64)
    ensures OnCreate(db, alarms, now).alarms == Boot.OnReceive(Some(Boot.ACTION_BOOT_COMPLETED), db, alarms, now)
  {
  }

  /** The check `onActivityResult` applies to the returned data before
      scheduling: data present, `taskTime` extra (default 0) positive, and a
      non-null `taskTitle` extra. */
  predicate CarriesReminder(data: Option<ResultData>) {
    data.Some? && data.value.taskTime.GetOr(0) > 0 && data.value.taskTitle.Some?
  }

  /** `onActivityResult(requestCode, resultCode, data)` with the clock
      reading `now`. */
  function OnActivityResult(s: Screen, requestCode: int, resultCode: int, data: Option<ResultData>, now: Int64): (r: Screen)
    ensures !(requestCode == ADD_TASK_REQUEST && resultCode == RESULT_OK) ==> r == s
    ensures requestCode == ADD_TASK_REQUEST && resultCode == RESULT_OK ==>
      Mirrors(r) && r.db == s.db && r.list == ReadAll(s.db)
    ensures !CarriesReminder(data) ==> r.alarms == s.alarms
    ensures requestCode == ADD_TASK_REQUEST && resultCode == RESULT_OK && CarriesReminder(data) ==>
      var time := data.value.taskTime.value;
      && (Skips(time, now) ==> r.alarms == s.alarms)
      && (!Skips(time, now) ==>
            && r.alarms.Keys == s.alarms.Keys + {Key(time)}
            && r.alarms[Key(time)] == AlarmFor(time, data.value.taskTitle.value)
            && (forall k :: k in s.alarms && k != Key(time) ==> r.alarms[k] == s.alarms[k]))
  {
    if requestCode == ADD_TASK_REQUEST && resultCode == RESULT_OK then
      var loaded := LoadTasks(s);
      if CarriesReminder(data) then
        loaded.(alarms := Schedule(loaded.alarms, now, data.value.taskTime.value, data.value.taskTitle.value))
      else loaded
    else s
  }

  /** The form started with `requestCode` finishes with `out`; the main
      screen sees the form's store writes, then its result (a form that set
      none reports `RESULT_CANCELED` with no data). */
  function ReturnFrom(s: Screen, requestCode: int, out: Outcome, now: Int64): (r: Screen)
    ensures r.db == out.db
    ensures out.result.NoResult? ==> r == s.(db := out.db)
    ensures requestCode == ADD_TASK_REQUEST && out.result == ResultSet(RESULT_OK, None) ==>
      Mirrors(r) && r.list == ReadAll(out.db) && r.alarms == s.alarms
  {
    var back := s.(db := out.db);
    match out.result
    case ResultSet(code, data) => OnActivityResult(back, requestCode, code, data, now)
    case NoResult => OnActivityResult(back, requestCode, RESULT_CANCELED, None, now)
  }

  /** The add flow as written: a task saved through the add form never gets
      its reminder from `onActivityResult`, because the form returns no data.
      Even a new task due far enough ahead, at an instant whose key holds no
      alarm yet, is left without one until the next restart or boot. */
  lemma AddRoundTripNeverSchedules(s: Screen, titleText: string, descriptionText: string, selected: Int64, now: Int64)
    requires !Rejects(titleText, descriptionText)
    requires selected > 0 && !Skips(selected, now) && Key(selected) !in s.alarms
    ensures var r := ReturnFrom(s, ADD_TASK_REQUEST, SaveTask(s.db, titleText, descriptionText, selected), now);
      && (exists i :: 0 <= i < |r.list| && r.list[i].id !in s.db.rows && r.list[i].timestamp == selected)
      && Key(selected) !in r.alarms
      && r.alarms == s.alarms
  {
    var out := SaveTask(s.db, titleText, descriptionText, selected);
    assert out.result == ResultSet(RESULT_OK, None);
    var r := OnActivityResult(s.(db := out.db), ADD_TASK_REQUEST, RESULT_OK, None, now);
    assert ReturnFrom(s, ADD_TASK_REQUEST, out, now) == r;
    NewRowListed(s.db, out.db, r.list, Row(Trim(titleText), Trim(descriptionText), selected));
  }

  /** The same on concrete values: on an empty screen at instant 0, adding
      "Buy milk" due one hour later lists the task and sets no alarm. */
  lemma BuyMilkGetsNoReminder()
    ensures var s := Screen(Empty(), map[], [], true);
      var r := ReturnFrom(s, ADD_TASK_REQUEST, SaveTask(s.db, "Buy milk", "2 l", 3600000), 0);
      r.list != [] && r.alarms == map[]
  {
    var s := Screen(Empty(), map[], [], true);
    TrimKeepsTrimmed("Buy milk");
    TrimKeepsTrimmed("2 l");
    assert !Skips(3600000, 0);
    AddRoundTripNeverSchedules(s, "Buy milk", "2 l", 3600000, 0);
  }

  /** After one row was added, a list showing the new store shows it. */
  lemma NewRowListed(before: Db, after: Db, list: seq<Task>, row: Row)
    requires exists id :: id !in before.rows && after.rows == before.rows[id := row]
    requires ListsAllRows(list, after)
    ensures exists i :: 0 <= i < |list| && list[i].id !in before.rows && RowOf(list[i]) == row
  {
    var id :| id !in before.rows && after.rows == before.rows[id := row];
    assert id in after.rows;
    var i :| 0 <= i < |list| && list[i].id == id;
    assert RowOf(list[i]) == after.rows[id];
  }

  /** The add flow with the corrected form: the new task is listed and its
      reminder is set ten minutes before it is due, whenever the scheduler
      accepts the instant. */
  lemma AddRoundTripSchedules(s: Screen, titleText: string, descriptionText: string, selected: Int64, now: Int64)
    requires !Rejects(titleText, descriptionText)
    requires selected > 0 && !Skips(selected, now)
    ensures var r := ReturnFrom(s, ADD_TASK_REQUEST, SaveTaskWithReminder(s.db, titleText, descriptionText, selected), now);
      && Mirrors(r)
      && (exists i :: 0 <= i < |r.list| && r.list[i].id !in s.db.rows
                       && RowOf(r.list[i]) == Row(Trim(titleText), Trim(descriptionText), selected))
      && Key(selected) in r.alarms
      && r.alarms[Key(selected)] == AlarmFor(selected, Trim(titleText))
      && r.alarms[Key(selected)].fireAt > now
  {
    var out := SaveTaskWithReminder(s.db, titleText, descriptionText, selected);
    var data := Some(ResultData(Some(selected), Some(Trim(titleText))));
    assert out.result == ResultSet(RESULT_OK, data);
    assert CarriesReminder(data);
    var r := OnActivityResult(s.(db := out.db), ADD_TASK_REQUEST, RESULT_OK, data, now);
    assert ReturnFrom(s, ADD_TASK_REQUEST, out, now) == r;
    NewRowListed(s.db, out.db, r.list, Row(Trim(titleText), Trim(descriptionText), selected));
  }

  /** `onSwiped` for the row at `position`: fetch the task (which throws
      outside the list), cancel its reminder, delete its row, remove it from
      the adapter, and show the placeholder if the list is now empty. */
  function OnSwiped(s: Screen, position: int): (r: Result<Screen, IndexError>)
    ensures r.Success? <==> 0 <= position < |s.list|
    ensures r.Failure? ==> r.error == IndexOutOfBounds(position, |s.list|)
    ensures r.Success? ==>
      var t := s.list[position];
      && r.value.db.rows.Keys == s.db.rows.Keys - {t.id}
      && (forall id :: id in r.value.db.rows ==> r.value.db.rows[id] == s.db.rows[id])
      && Key(t.timestamp) !in r.value.alarms
      && r.value.alarms.Keys == s.alarms.Keys - {Key(t.timestamp)}
      && (forall k :: k in r.value.alarms ==> r.value.alarms[k] == s.alarms[k])
      && multiset(r.value.list) + multiset{t} == multiset(s.list)
      && |r.value.list| == |s.list| - 1
      && (forall i :: 0 <= i < position ==> r.value.list[i] == s.list[i])
      && (forall i :: position <= i < |r.value.list| ==> r.value.list[i] == s.list[i + 1])
      && (r.value.placeholderShown <==> s.placeholderShown || r.value.list == [])
  {
    match GetTaskAt(s.list, position)
    case Failure(e) => Failure(e)
    case Success(t) =>
      var alarms := Cancel(s.alarms, t.timestamp);
      var db := DeleteTask(s.db, t.id);
      RemoveKeepsTheOthers(s.list, position);
      var list := RemoveTask(s.list, position).value;
      Success(Screen(db, alarms, list, s.placeholderShown || ItemCount(list) == 0))
  }

  /** A swipe keeps the screen showing the store: the list still in due
      order, one entry per remaining row, and the placeholder up exactly when
      the list has emptied. */
  lemma SwipeKeepsMirror(s: Screen, position: int)
    requires Mirrors(s) && 0 <= position < |s.list|
    ensures Mirrors(OnSwiped(s, position).value)
  {
    var r := OnSwiped(s, position).value;
    RemoveKeepsTheOthers(s.list, position);
    RemovedStillFaithful(s.list, position, s.db, r.db);
    RemovedStillCovers(s.list, position, s.db, r.db);
  }

  /** A swipe removes exactly one row and one list entry. */
  lemma SwipeRemovesOne(s: Screen, position: int)
    requires Mirrors(s) && 0 <= position < |s.list|
    ensures var r := OnSwiped(s, position).value;
      |r.db.rows| == |s.db.rows| - 1 && |r.list| == |s.list| - 1
  {
    var t := s.list[position];
    var r := OnSwiped(s, position).value;
    assert t.id in s.db.rows;
    assert r.db.rows.Keys == s.db.rows.Keys - {t.id};
    assert |multiset(r.list)| + 1 == |multiset(s.list)|;
  }

  /** Dropping one entry from a list showing the store, and its row from the
      store, leaves every remaining entry faithful to its row. */
  lemma RemovedStillFaithful(list: seq<Task>, p: int, db: Db, db': Db)
    requires 0 <= p < |list| && ListsAllRows(list, db)
    requires forall id :: id in db'.rows ==> id in db.rows && id != list[p].id && db'.rows[id] == db.rows[id]
    requires db'.rows.Keys == db.rows.Keys - {list[p].id}
    ensures var rest := list[..p] + list[p + 1..];
      forall i :: 0 <= i < |rest| ==> rest[i].id in db'.rows && db'.rows[rest[i].id] == RowOf(rest[i])
  {
    var rest := list[..p] + list[p + 1..];
    forall i | 0 <= i < |rest|
      ensures rest[i].id in db'.rows && db'.rows[rest[i].id] == RowOf(rest[i])
    {
      var i' := if i < p then i else i + 1;
      assert rest[i] == list[i'];
    }
  }

  /** ... and every remaining row still has its entry. */
  lemma RemovedStillCovers(list: seq<Task>, p: int, db: Db, db': Db)
    requires 0 <= p < |list| && ListsAllRows(list, db)
    requires db'.rows.Keys == db.rows.Keys - {list[p].id}
    ensures var rest := list[..p] + list[p + 1..];
      forall id :: id in db'.rows ==> exists i :: 0 <= i < |rest| && rest[i].id == id
  {
    var rest := list[..p] + list[p + 1..];
    forall id | id in db'.rows
      ensures exists i :: 0 <= i < |rest| && rest[i].id == id
    {
      var j :| 0 <= j < |list| && list[j].id == id;
      var i := if j < p then j else j - 1;
      assert rest[i] == list[j];
    }
  }

  /** Swiping away a task also cancels the reminder of every other task whose
      due instant has the same low 32 bits, though that task stays listed. */
  lemma SwipeCancelsSharedKey(s: Screen, position: int, u: Task)
    requires Mirrors(s) && 0 <= position < |s.list|
    requires u in s.list && u != s.list[position]
    requires SameLow32(u.timestamp, s.list[position].timestamp)
    ensures var r := OnSwiped(s, position).value;
      u in r.list && Key(u.timestamp) !in r.alarms
  {
    NarrowCollides(u.timestamp, s.list[position].timestamp);
    var r := OnSwiped(s, position).value;
    RemoveKeepsTheOthers(s.list, position);
    assert u in multiset(r.list) + multiset{s.list[position]};
  }

  /** `onTaskLongClick(task)`: the edit intent with the task's four fields. */
  function OnTaskLongClick(t: Task): (i: EditIntent)
    ensures OpenEditor(i) == EditForm(t.id, t.title, t.description, t.timestamp)
  {
    EditIntent(Some(t.id), Some(t.title), Some(t.description), Some(t.timestamp))
  }

  /** The adapter's long-click handler at `position`: nothing for
      `NO_POSITION`, otherwise `taskList.get(position)` (which throws outside
      the list) passed to `onTaskLongClick`. */
  function OnItemLongClick(list: seq<Task>, position: int): (r: Result<Option<EditIntent>, IndexError>)
    ensures position == NO_POSITION ==> r == Success(None)
    ensures position != NO_POSITION ==> (r.Success? <==> 0 <= position < |list|)
    ensures r.Success? && r.value.Some? ==> OpenEditor(r.value.value).taskId == list[position].id
  {
    if position == NO_POSITION then Success(None)
    else match GetTaskAt(list, position)
      case Failure(e) => Failure(e)
      case Success(t) => Success(Some(OnTaskLongClick(t)))
  }

  /** Opening the editor on a listed task and saving without touching the
      fields leaves the store as it was, when the stored text is already
      trimmed and non-empty (as everything saved through a form is). */
  lemma UnchangedEditKeepsStore(s: Screen, position: int)
    requires Mirrors(s) && 0 <= position < |s.list|
    requires s.list[position].title != [] && Trimmed(s.list[position].title)
    requires s.list[position].description != [] && Trimmed(s.list[position].description)
    ensures var form := OpenEditor(OnItemLongClick(s.list, position).value.value);
      Forms.UpdateTask(s.db, form).db == s.db
  {
    var t := s.list[position];
    assert OnItemLongClick(s.list, position) == Success(Some(OnTaskLongClick(t)));
    var form := OpenEditor(OnTaskLongClick(t));
    assert form == EditForm(t.id, t.title, t.description, t.timestamp);
    TrimKeepsTrimmed(t.title);
    TrimKeepsTrimmed(t.description);
    assert t.id in s.db.rows && s.db.rows[t.id] == RowOf(t);
    UpdateSameRow(s.db, t.id, s.db.rows[t.id]);
  }

  /** Trimmed text is its own trim. */
  lemma TrimKeepsTrimmed(x: string)
    requires Trimmed(x)
    ensures Trim(x) == x
  {
    assert [] + x + [] == x;
    TrimUnique([], x, []);
  }

  /** Writing a row's own values back changes nothing. */
  lemma UpdateSameRow(db: Db, id: int, row: Row)
    requires id in db.rows && db.rows[id] == row
    ensures Database.UpdateTask(db, id, row.title, row.description, row.timestamp) == db
  {
    var r := Database.UpdateTask(db, id, row.title, row.description, row.timestamp);
    assert r.rows == db.rows;
  }

  /** An edit leaves the alarm table exactly as it was: the edit form
      returns no data, so `onActivityResult` only reloads the list. */
  lemma EditRoundTripKeepsAlarms(s: Screen, form: EditForm, now: Int64)
    ensures var r := ReturnFrom(s, ADD_TASK_REQUEST, Forms.UpdateTask(s.db, form), now);
      && r.alarms == s.alarms
      && (!Rejects(form.titleText, form.descriptionText) ==> Mirrors(r))
  {
  }

  /** Moving a task to a new instant by editing it leaves the alarm under
      the old instant's key set and unchanged, while the
      task listed under that id now carries the new one; the new instant
      gets a reminder only if its key had one already. */
  lemma EditLeavesStaleReminder(s: Screen, form: EditForm, now: Int64)
    requires form.taskId in s.db.rows
    requires Key(s.db.rows[form.taskId].timestamp) in s.alarms
    requires !Rejects(form.titleText, form.descriptionText)
    ensures var old_time := s.db.rows[form.taskId].timestamp;
      var r := ReturnFrom(s, ADD_TASK_REQUEST, Forms.UpdateTask(s.db, form), now);
      && Key(old_time) in r.alarms
      && r.alarms[Key(old_time)] == s.alarms[Key(old_time)]
      && (forall t :: t in r.list && t.id == form.taskId ==> t.timestamp == form.selected)
      && (Key(form.selected) in r.alarms <==> Key(form.selected) in s.alarms)
  {
    var out := Forms.UpdateTask(s.db, form);
    assert out.result == ResultSet(RESULT_OK, None);
    var r := OnActivityResult(s.(db := out.db), ADD_TASK_REQUEST, RESULT_OK, None, now);
    assert ReturnFrom(s, ADD_TASK_REQUEST, out, now) == r;
    assert r.alarms == s.alarms;
    ListedRow(r.list, out.db, form.taskId);
  }

  /** In a list showing the store, an entry with a stored id carries that
      row's values. */
  lemma ListedRow(list: seq<Task>, db: Db, id: int)
    requires ListsAllRows(list, db) && id in db.rows
    ensures forall t :: t in list && t.id == id ==> RowOf(t) == db.rows[id]
  {
    forall t | t in list && t.id == id
      ensures RowOf(t) == db.rows[id]
    {
      var i :| 0 <= i < |list| && list[i] == t;
    }
  }
}

=== FILE: restore.dfy ===
/** Re-registering reminders after a restart: the loop shared by
    `MainActivity.rescheduleAlarmsForAllTasks` and `BootReceiver.onReceive`.
    Both read every task and call the scheduler for each task due after the
    current instant; the clock is read once per call here. */
module Restore {
  import opened JavaInt
  import opened Tasks
  import opened Alarms

  /** One iteration: only a task due after `now` reaches the scheduler. */
  function RestoreOne(table: AlarmTable, t: Task, now: Int64): (r: AlarmTable)
    ensures r.Keys == table.Keys + (if GetsAlarm(t, now) then {Key(t.timestamp)} else {})
    ensures GetsAlarm(t, now) ==> r[Key(t.timestamp)] == AlarmFor(t.timestamp, t.title)
    ensures forall k :: k in table && (k != Key(t.timestamp) || !GetsAlarm(t, now)) ==> r[k] == table[k]
  {
    if t.timestamp > now then Schedule(table, now, t.timestamp, t.title) else table
  }

  /** The whole loop over `tasks`, in list order. */
  function RestoreAll(table: AlarmTable, tasks: seq<Task>, now: Int64): (r: AlarmTable)
    ensures table.Keys <= r.Keys
    ensures forall k :: k in r ==> (k in table && r[k] == table[k]) || r[k].fireAt > now
    decreases |tasks|
  {
    if tasks == [] then table
    else RestoreAll(RestoreOne(table, tasks[0], now), tasks[1..], now)
  }

  /** `t` ends up with an alarm: it is due after `now` (the loop's filter)
      and its reminder instant is after `now` (the scheduler's skip rule). */
  predicate GetsAlarm(t: Task, now: Int64) {
    t.timestamp > now && !Skips(t.timestamp, now)
  }

  /** The keys a restore over `tasks` writes. */
  function WrittenKeys(tasks: seq<Task>, now: Int64): set<Int32> {
    set t | t in tasks && GetsAlarm(t, now) :: Key(t.timestamp)
  }

  /** Restore writes exactly the keys of the tasks that get an alarm, and
      leaves every other key as it was. */
  lemma {:induction false} RestoreKeys(table: AlarmTable, tasks: seq<Task>, now: Int64)
    ensures RestoreAll(table, tasks, now).Keys == table.Keys + WrittenKeys(tasks, now)
    ensures forall k :: k in table && k !in WrittenKeys(tasks, now) ==> RestoreAll(table, tasks, now)[k] == table[k]
    decreases |tasks|
  {
    if tasks != [] {
      var next := RestoreOne(table, tasks[0], now);
      RestoreKeys(next, tasks[1..], now);
      assert tasks == [tasks[0]] + tasks[1..];
      assert WrittenKeys(tasks, now)
          == WrittenKeys(tasks[1..], now) + (if GetsAlarm(tasks[0], now) then {Key(tasks[0].timestamp)} else {});
    }
  }

  /** Every alarm a restore writes is the alarm of a task of the list that
      is due after `now` and whose reminder instant is after `now`. */
  lemma {:induction false} RestoreOrigin(table: AlarmTable, tasks: seq<Task>, now: Int64)
    ensures forall k :: k in WrittenKeys(tasks, now) ==>
      (k in RestoreAll(table, tasks, now) &&
       exists t :: t in tasks && GetsAlarm(t, now) && Key(t.timestamp) == k && RestoreAll(table, tasks, now)[k] == AlarmFor(t.timestamp, t.title))
    decreases |tasks|
  {
    if tasks != [] {
      var next := RestoreOne(table, tasks[0], now);
      RestoreOrigin(next, tasks[1..], now);
      RestoreKeys(next, tasks[1..], now);
      var r := RestoreAll(table, tasks, now);
      forall k | k in WrittenKeys(tasks, now)
        ensures k in r && exists t :: t in tasks && GetsAlarm(t, now) && Key(t.timestamp) == k && r[k] == AlarmFor(t.timestamp, t.title)
      {
        if k in WrittenKeys(tasks[1..], now) {
          var t :| t in tasks[1..] && GetsAlarm(t, now) && Key(t.timestamp) == k && r[k] == AlarmFor(t.timestamp, t.title);
          assert t in tasks;
        } else {
          assert tasks == [tasks[0]] + tasks[1..];
          assert GetsAlarm(tasks[0], now) && Key(tasks[0].timestamp) == k;
          assert r[k] == next[k];
        }
      }
    }
  }

  /** A task due at or before `now` never obtains an alarm from restore: its
      key changes only if some other task of the list, due after `now`, shares
      it. */
  lemma PastTaskGetsNoAlarm(table: AlarmTable, tasks: seq<Task>, now: Int64, t: Task)
    requires t in tasks && t.timestamp <= now
    requires forall u :: u in tasks && GetsAlarm(u, now) ==> Key(u.timestamp) != Key(t.timestamp)
    ensures Key(t.timestamp) in RestoreAll(table, tasks, now) <==> Key(t.timestamp) in table
    ensures Key(t.timestamp) in table ==> RestoreAll(table, tasks, now)[Key(t.timestamp)] == table[Key(t.timestamp)]
  {
    RestoreKeys(table, tasks, now);
  }

  /** Restore onto a table is the table overridden by what a restore onto
      an empty table writes. */
  lemma {:induction false} RestoreOver(base: AlarmTable, table: AlarmTable, tasks: seq<Task>, now: Int64)
    ensures RestoreAll(base + table, tasks, now) == base + RestoreAll(table, tasks, now)
    decreases |tasks|
  {
    if tasks != [] {
      var t := tasks[0];
      assert RestoreOne(base + table, t, now) == base + RestoreOne(table, t, now);
      RestoreOver(base, RestoreOne(table, t, now), tasks[1..], now);
    }
  }

  /** Restore onto any table is that table overridden by what a restore
      onto the empty table writes. */
  lemma RestoreOnto(table: AlarmTable, tasks: seq<Task>, now: Int64)
    ensures RestoreAll(table, tasks, now) == table + RestoreAll(map[], tasks, now)
  {
    assert table + map[] == table;
    RestoreOver(table, map[], tasks, now);
  }

  /** Overriding with the same entries twice is overriding once. */
  lemma OverrideTwice(table: AlarmTable, written: AlarmTable)
    ensures (table + written) + written == table + written
  {
    assert ((table + written) + written).Keys == (table + written).Keys;
  }

  /** Restoring twice with the same clock reading and the same tasks leaves
      the same alarm table as restoring once. */
  lemma RestoreIdempotent(table: AlarmTable, tasks: seq<Task>, now: Int64)
    ensures RestoreAll(RestoreAll(table, tasks, now), tasks, now) == RestoreAll(table, tasks, now)
  {
    var once := RestoreAll(table, tasks, now);
    RestoreOnto(table, tasks, now);
    RestoreOnto(once, tasks, now);
    OverrideTwice(table, RestoreAll(map[], tasks, now));
  }

  /** Which keys a restore writes does not depend on the order in which the
      tasks are read, so the order SQL leaves open among tasks due at the same
      instant cannot change which keys hold a reminder. What a shared key
      holds can change: see `TieOrderPicksTitle`. */
  lemma RestoreKeysOrderFree(table: AlarmTable, s1: seq<Task>, s2: seq<Task>, now: Int64)
    requires multiset(s1) == multiset(s2)
    ensures RestoreAll(table, s1, now).Keys == RestoreAll(table, s2, now).Keys
  {
    RestoreKeys(table, s1, now);
    RestoreKeys(table, s2, now);
    forall t
      ensures t in s1 <==> t in s2
    {
      assert t in s1 <==> t in multiset(s1);
      assert t in s2 <==> t in multiset(s2);
    }
    assert WrittenKeys(s1, now) == WrittenKeys(s2, now);
  }

  /** For example, two tasks due at the same instant share a key, and in
      the model the reminder under it carries whichever of them the loop
      reaches last (`LastWriterWins`): the order of the list decides which
      title it shows. */
  lemma TieOrderPicksTitle()
    ensures var a := Task(1, "A", "", 3600000);
      var b := Task(2, "B", "", 3600000);
      && RestoreAll(map[], [a, b], 0)[Key(3600000)].title == "B"
      && RestoreAll(map[], [b, a], 0)[Key(3600000)].title == "A"
  {
    var a := Task(1, "A", "", 3600000);
    var b := Task(2, "B", "", 3600000);
    var k := Key(3600000);
    assert GetsAlarm(a, 0) && GetsAlarm(b, 0);
    assert [a, b][1..] == [b] && [b, a][1..] == [a];
    var ab := RestoreOne(RestoreOne(map[], a, 0), b, 0);
    assert RestoreAll(map[], [a, b], 0) == RestoreAll(ab, [], 0) == ab;
    assert ab[k] == AlarmFor(b.timestamp, b.title);
    var ba := RestoreOne(RestoreOne(map[], b, 0), a, 0);
    assert RestoreAll(map[], [b, a], 0) == RestoreAll(ba, [], 0) == ba;
    assert ba[k] == AlarmFor(a.timestamp, a.title);
  }

  /** The alarm under a key is the reminder of the last listed task that
      writes that key: a task that gets an alarm keeps it unless a later
      task of the list with the same key overwrites it. */
  lemma {:induction false} LastWriterWins(table: AlarmTable, tasks: seq<Task>, now: Int64, i: int)
    requires 0 <= i < |tasks| && GetsAlarm(tasks[i], now)
    requires forall j :: i < j < |tasks| && GetsAlarm(tasks[j], now) ==> Key(tasks[j].timestamp) != Key(tasks[i].timestamp)
    ensures Key(tasks[i].timestamp) in RestoreAll(table, tasks, now)
    ensures RestoreAll(table, tasks, now)[Key(tasks[i].timestamp)] == AlarmFor(tasks[i].timestamp, tasks[i].title)
    decreases |tasks|
  {
    var next := RestoreOne(table, tasks[0], now);
    if i == 0 {
      RestoreKeys(next, tasks[1..], now);
    } else {
      LastWriterWins(next, tasks[1..], now, i - 1);
    }
  }
}

=== FILE: store_laws.dfy ===
/** Laws relating the operations of the task store to each other and to
    what `getAllTasks` reads back. */
module StoreLaws {
  import opened JavaInt
  import opened Tasks
  import opened Database

  /** One write a caller can issue against the store. */
  datatype StoreOp =
    | Add(title: string, description: string, timestamp: Int64)
    | Delete(id: int)
    | Update(id: int, title: string, description: string, timestamp: Int64)

  /** Applies `ops` in order; returns the final table and, in order, the ids
      that the `Add` operations were given. */
  function Replay(db: Db, ops: seq<StoreOp>): (r: (Db, seq<int>))
    ensures r.0.nextId >= db.nextId
    ensures forall i, j :: 0 <= i < j < |r.1| ==> r.1[i] < r.1[j]
    ensures forall i :: 0 <= i < |r.1| ==> db.nextId <= r.1[i] < r.0.nextId
    decreases |ops|
  {
    if ops == [] then (db, [])
    else
      match ops[0]
      case Add(t, d, ts) =>
        var (db1, id) := AddTask(db, t, d, ts);
        var (db2, ids) := Replay(db1, ops[1..]);
        (db2, [id] + ids)
      case Delete(id) => Replay(DeleteTask(db, id), ops[1..])
      case Update(id, t, d, ts) => Replay(UpdateTask(db, id, t, d, ts), ops[1..])
  }

  /** No id is handed out twice while the table lives, and no id handed out
      during a run was already in use when the run began. */
  lemma IdsNeverReused(db: Db, ops: seq<StoreOp>)
    ensures var (_, ids) := Replay(db, ops);
      && (forall i, j :: 0 <= i < j < |ids| ==> ids[i] != ids[j])
      && (forall i :: 0 <= i < |ids| ==> ids[i] !in db.rows)
  {
  }

  /** Deleting twice is deleting once. */
  lemma DeleteIdempotent(db: Db, id: int)
    ensures DeleteTask(DeleteTask(db, id), id) == DeleteTask(db, id)
  {
  }

  /** Deleting the row just added restores the previous rows. */
  lemma DeleteUndoesAdd(db: Db, title: string, description: string, timestamp: Int64)
    ensures var (db', id) := AddTask(db, title, description, timestamp);
      DeleteTask(db', id).rows == db.rows
  {
  }

  /** After an insert, reading all tasks yields one more task, the new one
      with exactly the values given. */
  lemma ReadAllAfterAdd(db: Db, title: string, description: string, timestamp: Int64)
    ensures var (db', id) := AddTask(db, title, description, timestamp);
      && |ReadAll(db')| == |ReadAll(db)| + 1
      && Task(id, title, description, timestamp) in ReadAll(db')
  {
    var (db', id) := AddTask(db, title, description, timestamp);
    var i :| 0 <= i < |ReadAll(db')| && ReadAll(db')[i].id == id;
    assert ReadAll(db')[i] == Task(id, title, description, timestamp);
  }

  /** After an update of a present id, reading all tasks yields exactly one
      task with that id, and it carries the new values. */
  lemma ReadAllAfterUpdate(db: Db, id: int, title: string, description: string, timestamp: Int64)
    requires id in db.rows
    ensures var s := ReadAll(UpdateTask(db, id, title, description, timestamp));
      && Task(id, title, description, timestamp) in s
      && (forall t :: t in s && t.id == id ==> t == Task(id, title, description, timestamp))
      && |s| == |ReadAll(db)|
  {
    var s := ReadAll(UpdateTask(db, id, title, description, timestamp));
    var i :| 0 <= i < |s| && s[i].id == id;
    assert s[i] == Task(id, title, description, timestamp);
  }

  /** After a delete, no task read back carries the deleted id, and one task
      fewer is read when the id was present. */
  lemma ReadAllAfterDelete(db: Db, id: int)
    ensures var s := ReadAll(DeleteTask(db, id));
      && (forall t :: t in s ==> t.id != id)
      && |s| == if id in db.rows then |ReadAll(db)| - 1 else |ReadAll(db)|
  {
    var s := ReadAll(DeleteTask(db, id));
    forall t | t in s
      ensures t.id != id
    {
      var i :| 0 <= i < |s| && s[i] == t;
    }
  }
}

=== FILE: task.dfy ===
/** The app's one entity. A Java `Task` is built once by its constructor and
    has only getters, so an immutable datatype is an exact model: the four
    destructors are `getId`, `getTitle`, `getDescription` and `getTimestamp`. */
module Tasks {
  import opened JavaInt

  /** A to-do item: store id, title, description and due instant in
      milliseconds since the epoch. */
  datatype Task = Task(id: int, title: string, description: string, timestamp: Int64)

  /** `s` lists tasks in non-decreasing order of due instant. */
  predicate SortedByTime(s: seq<Task>) {
    forall i, j :: 0 <= i < j < |s| ==> s[i].timestamp <= s[j].timestamp
  }

  /** No two entries of `s` carry the same id. */
  predicate DistinctIds(s: seq<Task>) {
    forall i, j :: 0 <= i < j < |s| ==> s[i].id != s[j].id
  }

  /** The subsequence of `s` due at exactly `time`, in the order of `s`. */
  function DueAt(s: seq<Task>, time: int): seq<Task> {
    if s == [] then []
    else (if s[0].timestamp == time then [s[0]] else []) + DueAt(s[1..], time)
  }
}

=== FILE: task_order.dfy ===
/** Ordering of task lists by due instant. `Collections.sort` with a comparator
    on `getTimestamp()` is a stable sort: it returns a permutation of its input,
    non-decreasing by timestamp, in which tasks due at the same instant keep
    their relative order. Insertion sort has exactly that specification and is
    the model here. */
module TaskOrder {
  import opened Tasks

  /** Puts `t` in front of the first element of `s` due no earlier than it. */
  function Insert(t: Task, s: seq<Task>): (r: seq<Task>)
    ensures multiset(r) == multiset(s) + multiset{t}
    ensures |r| > 0 && (r[0] == t || (|s| > 0 && r[0] == s[0]))
  {
    if s == [] || t.timestamp <= s[0].timestamp then [t] + s
    else
      assert s == [s[0]] + s[1..];
      [s[0]] + Insert(t, s[1..])
  }

  lemma {:induction false} InsertSorted(t: Task, s: seq<Task>)
    requires SortedByTime(s)
    ensures SortedByTime(Insert(t, s))
  {
    if s != [] && t.timestamp > s[0].timestamp {
      assert SortedByTime(s[1..]);
      InsertSorted(t, s[1..]);
    }
  }

  /** Java's `Collections.sort(tasks, (t1, t2) -> Long.compare(...))`. */
  function StableSort(s: seq<Task>): (r: seq<Task>)
    ensures multiset(r) == multiset(s)
    ensures SortedByTime(r)
  {
    if s == [] then []
    else
      assert s == [s[0]] + s[1..];
      InsertSorted(s[0], StableSort(s[1..]));
      Insert(s[0], StableSort(s[1..]))
  }

  /** Sorting keeps exactly the elements it was given. */
  lemma SameElements(s: seq<Task>)
    ensures forall t :: t in StableSort(s) <==> t in s
  {
    forall t
      ensures t in StableSort(s) <==> t in s
    {
      assert t in StableSort(s) <==> t in multiset(StableSort(s));
      assert t in s <==> t in multiset(s);
    }
  }

  /** The tasks of `[t] + s` due at `time`. */
  lemma DueAtCons(t: Task, s: seq<Task>, time: int)
    ensures DueAt([t] + s, time) == (if t.timestamp == time then [t] else []) + DueAt(s, time)
  {
    assert ([t] + s)[0] == t;
    assert ([t] + s)[1..] == s;
  }

  lemma {:induction false} InsertKeepsDueAt(t: Task, s: seq<Task>, time: int)
    ensures DueAt(Insert(t, s), time) == DueAt([t] + s, time)
  {
    if s != [] && t.timestamp > s[0].timestamp {
      var rest := Insert(t, s[1..]);
      var hs := if s[0].timestamp == time then [s[0]] else [];
      var ht := if t.timestamp == time then [t] else [];
      var tail := DueAt(s[1..], time);
      assert DueAt(Insert(t, s), time) == hs + (ht + tail) by {
        InsertKeepsDueAt(t, s[1..], time);
        assert Insert(t, s) == [s[0]] + rest;
        DueAtCons(s[0], rest, time);
        DueAtCons(t, s[1..], time);
      }
      assert DueAt([t] + s, time) == ht + (hs + tail) by {
        DueAtCons(s[0], s[1..], time);
        assert [s[0]] + s[1..] == s;
        DueAtCons(t, s, time);
      }
      SwapEmpty(hs, ht, tail);
    }
  }

  lemma SwapEmpty(a: seq<Task>, b: seq<Task>, c: seq<Task>)
    requires a == [] || b == []
    ensures a + (b + c) == b + (a + c)
  {
    if a == [] {
      assert a + (b + c) == b + c;
    } else {
      assert b + c == c;
    }
  }

  /** Stability: for every instant, the tasks due at that instant appear in
      the sorted list in the same order as in the input. */
  lemma {:induction false} StableSortIsStable(s: seq<Task>, time: int)
    ensures DueAt(StableSort(s), time) == DueAt(s, time)
  {
    if s != [] {
      StableSortIsStable(s[1..], time);
      InsertKeepsDueAt(s[0], StableSort(s[1..]), time);
      assert ([s[0]] + StableSort(s[1..]))[1..] == StableSort(s[1..]);
    }
  }

  /** Sorting a list that is already in due order changes nothing. */
  lemma {:induction false} StableSortOfSorted(s: seq<Task>)
    requires SortedByTime(s)
    ensures StableSort(s) == s
  {
    if s != [] {
      assert SortedByTime(s[1..]);
      StableSortOfSorted(s[1..]);
      assert s == [s[0]] + s[1..];
    }
  }

  /** Sorting keeps ids distinct when they were distinct. */
  lemma {:induction false} StableSortKeepsDistinctIds(s: seq<Task>)
    requires DistinctIds(s)
    ensures DistinctIds(StableSort(s))
  {
    if s != [] {
      StableSortKeepsDistinctIds(s[1..]);
      var rest := StableSort(s[1..]);
      forall u | u in s[1..]
        ensures u.id != s[0].id
      {
        InTail(s, u);
      }
      SameElements(s[1..]);
      InsertKeepsDistinctIds(s[0], rest);
    }
  }

  /** Every element of a tail sits at a later index of the whole list. */
  lemma InTail(s: seq<Task>, u: Task)
    requires s != [] && u in s[1..]
    ensures exists k :: 1 <= k < |s| && s[k] == u
  {
    var k :| 0 <= k < |s[1..]| && s[1..][k] == u;
    assert s[k + 1] == u;
  }

  lemma {:induction false} InsertKeepsDistinctIds(t: Task, s: seq<Task>)
    requires DistinctIds(s)
    requires forall u :: u in s ==> u.id != t.id
    ensures DistinctIds(Insert(t, s))
  {
    if s == [] || t.timestamp <= s[0].timestamp {
      var r := [t] + s;
      forall i, j | 0 <= i < j < |r|
        ensures r[i].id != r[j].id
      {
        if i == 0 {
          assert r[j] == s[j - 1];
        } else {
          assert r[i] == s[i - 1] && r[j] == s[j - 1];
        }
      }
    } else {
      assert DistinctIds(s[1..]);
      InsertKeepsDistinctIds(t, s[1..]);
      var rest := Insert(t, s[1..]);
      var r := [s[0]] + rest;
      forall j | 0 < j < |r|
        ensures r[j].id != s[0].id
      {
        var u := r[j];
        assert u == rest[j - 1];
        assert u in multiset(rest);
        if u != t {
          assert u in multiset(s[1..]);
          InTail(s, u);
        }
      }
      forall i, j | 0 <= i < j < |r|
        ensures r[i].id != r[j].id
      {
        if i > 0 {
          assert r[i] == rest[i - 1] && r[j] == rest[j - 1];
        }
      }
    }
  }
}

=== FILE: wrappers.dfy ===
/** Option and Result, the failure-carrying values the model uses where the
    app reads an absent intent extra or where a Java call would throw. */
module Wrappers {

  /** A possibly absent value: a missing intent extra, a null reference. */
  datatype Option<+T> = None | Some(value: T) {

    /** The value, or `default` when absent (Java's `getXxxExtra(key, default)`). */
    function GetOr(default: T): T {
      match this
      case Some(v) => v
      case None => default
    }
  }

  /** Either a value or the exception the Java code would raise instead. */
  datatype Result<+R, +E> = Success(value: R) | Failure(error: E)
}
